=== FILE: README.md ===
# Edvora course marketplace — a Dafny model of the store logic

Edvora is an online course marketplace. Educators publish courses, students
buy them through a payment processor (Stripe), watch the lectures, record
their progress and rate the courses. Identity comes from Clerk.

This project models the business logic behind the REST handlers. Each
handler is a pure function from a store to a `Step(store, response)`. The
store is four maps: users, courses, purchases, and course-progress records
keyed by (userId, courseId). The pure helpers of the client are modelled
too.

Files and modules:

- `wrappers.dfy` (`Wrappers`): `Option`, plus `Oracle<T>`, the outcome of a
  call into an external service (a value, or the error it threw).
- `text.dfy` (`Text`): the JavaScript string operations the code uses:
  `||` on strings, `trim`, `includes`, `indexOf`, and `split(sep)[1]`.
- `model.dfy` (`Model`): the documents, the store, `Response`/`Step`, and
  the store invariant `Wf`. `Wf` says that documents sit under their own
  id and that enrolment, rating and completed-lecture lists hold no
  duplicates.
- `webhooks.dfy` (`Webhooks`): the Clerk user webhook, and the Stripe
  payment webhook with its signature gate and its success and failure
  handlers.
- `user_controller.dfy` (`UserController`): `getUserData`,
  `userEnrolledCourses`, `purchaseCourse`, `updateUserCourseProgress` and
  `addUserRating`.
- `educator_controller.dfy` (`EducatorController`): `addCourse`,
  `updateCourse`, `getEducatorCourses`, `educatorDashboardData` and
  `getEnrolledStudentsData`.
- `course_controller.dfy` (`CourseController`): `getAllCourse`,
  `getCourseId` (lecture-URL redaction) and `deleteCourse`.
- `auth_middleware.dfy` (`AuthMiddleware`): `protectEducator`.
- `app_context.dfy` (`AppContext`): the rating average, lecture count,
  minute totals, and the client's enrolled-course list.
- `player.dfy` (`Player`): `getYouTubeId`, `getFirstLecture`,
  `toggleSection` and `getCourseData`.
- `lifecycle.dfy` (`Lifecycle`): properties that span handlers. Checkout
  creates a pending purchase. The payment webhook completes it or fails it.
  Then the educator's reports and the student's client show the result.

Conventions:

- An identifier the request does not carry is written as `""`. In
  JavaScript, undefined, null and `""` are all falsy.
- A `{success: false, message}` reply with the default HTTP status is
  `Err(200, message)`.
- The caught error messages of external services are the `Threw` message of
  the corresponding oracle.
- Fresh document ids are parameters, with a precondition that the id is
  not yet in use. The store assigns them.
- Timestamps are parameters too.
- Money is `real`.

The payment handlers behave as follows:

- A completed purchase has no terminal-state guard. A
  `payment_intent.payment_failed` event overwrites a `completed` purchase
  with `failed`, and the buyer stays enrolled. `FailureOverwritesCompleted`
  and `Lifecycle.FailureUncountsSale` state this behaviour.
- The success handler does not check the status before writing either. A
  success event re-completes a `failed` purchase.
- The handlers react to `payment_intent.succeeded` and
  `payment_intent.payment_failed`, not to checkout-session events. The
  correlation goes from the payment intent, through the session list, to
  `metadata.purchaseId`.
- A store error inside a payment handler is caught and logged. The event is
  still acknowledged with `{received: true}`, so the processor does not
  redeliver it.
- Writes cut short by such an error are modelled by `Fault`: `FailsAfter(k)`
  lets the first `k` of a handler's writes through. The failure handler has
  a single write, so every `k >= 1` writes it.

## Model

| member | source | states |
|---|---|---|
| Text.Trim | server/controllers/webhooks.js:26 | the trimmed text neither starts nor ends with whitespace, and is empty exactly when the input is all whitespace |
| Text.TrimIsSlice | server/controllers/webhooks.js:26 | trimming keeps a contiguous slice of the input and removes only whitespace around it |
| Text.SecondPiece | client/src/pages/student/Player.jsx:45-50 | `split(sep)[1]` is undefined exactly when `sep` does not occur; otherwise it is the piece starting right after the first occurrence and running up to the next occurrence or the end (`PieceAt`), with no `sep` inside |
| Text.PieceUnique | client/src/pages/student/Player.jsx:45-50 | at a given start there is only one piece running up to the next separator or the end |
| Text.PieceFrom | client/src/pages/student/Player.jsx:45-50 | the text from a position up to the next separator or the end is that unique piece, and holds no separator |
| Webhooks.ProfileEmail | server/controllers/webhooks.js:25 | the e-mail is the first address if that is non-empty, and "no-email@user.com" when there is no address or the first one is empty |
| Webhooks.ProfileName | server/controllers/webhooks.js:26 | the name is "first last" trimmed, or "User" when that is all whitespace; it is never empty and has no surrounding whitespace |
| Webhooks.ProfileImage | server/controllers/webhooks.js:27 | the image is the given URL if non-empty, and the placeholder image otherwise |
| Webhooks.BlankNameIsUser | server/controllers/webhooks.js:26 | blank first and last names give the name "User" |
| Webhooks.Correlate | server/controllers/webhooks.js:79-89 | a correlated purchase id names an existing purchase record |
| Model.AddOnce | server/controllers/webhooks.js:98-106 | the value is in the result; the result holds exactly the old elements and the value; a present value leaves the list as it was, an absent one is appended at the end; no duplicates are introduced |
| Webhooks.ClerkWebhook | server/controllers/webhooks.js:7-57 | an unverified delivery gets 400 and writes nothing; user.created inserts exactly one user under the id, with the profile name, email and image and no enrolments, and is refused for a missing or taken id; user.updated changes only name, email and image and keeps the enrolments; user.deleted removes exactly that id; other types write nothing; only the user map changes |
| Webhooks.ClerkWebhookPreservesWf | server/controllers/webhooks.js:22-49 | every user event keeps the store invariant |
| Webhooks.HandlePaymentSuccess | server/controllers/webhooks.js:77-113 | with no session, purchase, user or course the store is unchanged; otherwise each of the three records either stays as it was or gets its one write (buyer appended to the course's students only if absent, course appended to the buyer's courses only if absent, status completed), in that order; a fault before the first write changes nothing; with no fault all three writes happen; no other document changes |
| Webhooks.HandlePaymentFailed | server/controllers/webhooks.js:115-135 | the correlated purchase gets status failed whatever its status was, every other field kept, unless the error came before the write; users, courses, progress and other purchases are untouched |
| Webhooks.StripeWebhook | server/controllers/webhooks.js:62-151 | a failed signature gives 400 and no write; payment_intent.succeeded has the success handler's effect and payment_intent.payment_failed the failure handler's; every verified event is acknowledged with received, even when its handler stopped on an error; an unknown event type writes nothing |
| Webhooks.SignatureGateReadsNothing | server/controllers/webhooks.js:67-75 | with a failed signature the answer does not depend on the store, the sessions or the fault, and the store is unchanged |
| Webhooks.PaymentSuccessIdempotent | server/controllers/webhooks.js:97-109 | handling the same success event twice gives the store of handling it once |
| Webhooks.PaymentSuccessRetryConverges | server/controllers/webhooks.js:97-112 | a success delivery that stopped after any number of writes, followed by a full redelivery, ends where one full delivery ends |
| Webhooks.EnrolWritesResume | server/controllers/webhooks.js:97-109 | redoing all three writes after any prefix of them equals doing them once |
| Webhooks.PaymentSuccessPreservesWf | server/controllers/webhooks.js:97-106 | the membership-guarded appends keep both enrolment lists duplicate-free |
| Webhooks.FailureOverwritesCompleted | server/controllers/webhooks.js:97-131 | a failure event after a success event leaves the purchase failed while the enrolments stay |
| Webhooks.PaymentFailedPreservesWf | server/controllers/webhooks.js:115-135 | the failure handler keeps the store invariant |
| UserController.UserFromClaims | server/controllers/userController.js:19-42 | the auto-created user has the caller's id and no enrolments; its name is fullName, else name, else "User"; its email is email, else email_address ("" when both are missing); its image is imageUrl, else picture ("" likewise) |
| UserController.GetUserData | server/controllers/userController.js:8-48 | no caller gives 401; a known user is returned unchanged with no write; an unknown caller gets exactly the record built from the session claims, which is stored under its id and returned; only that user key changes |
| UserController.GetUserDataIdempotent | server/controllers/userController.js:8-48 | a second call returns the same record and writes nothing more |
| UserController.Populate | server/controllers/userController.js:60 | a single id gives its course, or nothing when the course is gone; the result holds only existing courses of the id list and every one of them |
| UserController.PopulateAppend | server/controllers/userController.js:60 | populating a concatenation gives the concatenation of the results, so the id list's order is kept |
| UserController.UserEnrolledCourses | server/controllers/userController.js:51-73 | no caller gives 401; a missing user record gives an empty list with success; otherwise the list is the user's course list populated in order, holding every existing enrolled course and nothing else |
| UserController.NetPrice | server/controllers/userController.js:93-101 | the amount is price·(100 − discount)/100, between 0 and the price for a discount in 0..100 |
| UserController.NetPriceExample | server/controllers/userController.js:96-99 | price 100 with discount 20 gives 80 |
| UserController.PurchaseCourse | server/controllers/userController.js:76-134 | no caller gives 401; a missing user or course gives "Data Not Found" and creates nothing; otherwise exactly one purchase is added, for the caller and the course, with the default status and the net price, and it stays even when the checkout session fails |
| UserController.UpdateUserCourseProgress | server/controllers/userController.js:137-168 | no caller gives 401; an already completed lecture changes nothing; otherwise an existing record gets the lecture appended and completed set to true with every other field kept, or a record with just that lecture is created |
| UserController.ProgressIdempotent | server/controllers/userController.js:149-151 | marking the same lecture twice leaves the store of marking it once |
| UserController.ProgressPreservesWf | server/controllers/userController.js:148-161 | after marking, the lecture is recorded and the completed list stays duplicate-free |
| UserController.FindRating | server/controllers/userController.js:211-213 | the index found is the first entry by the user, and None means there is none |
| UserController.UpsertRating | server/controllers/userController.js:211-219 | an existing entry is replaced in place and the length is kept; otherwise one entry is appended; other users' entries are untouched; one entry per user is preserved |
| UserController.AddUserRating | server/controllers/userController.js:188-226 | a missing id, a rating outside 1..5, a missing course or a caller who is not enrolled is refused and writes nothing; success happens exactly when all checks pass, and then only that course's ratings change, to the upsert of the caller's rating (other users' entries untouched) |
| UserController.AddUserRatingPreservesWf | server/controllers/userController.js:211-221 | rating keeps at most one entry per user |
| UserController.ReRatingKeepsLength | server/controllers/userController.js:215-216 | rating a course again does not lengthen its rating list |
| EducatorController.AddCourse | server/controllers/educatorController.js:25-49 | without a thumbnail, or when the upload fails, nothing is created; a created course has the draft's title, description, price, discount, content and published flag, the caller as educator, the uploaded thumbnail, and (the draft carrying no such fields) no students or ratings |
| EducatorController.UpdateCourse | server/controllers/educatorController.js:52-101 | a missing id, a missing course or a non-owner (403) writes nothing; the owner's update succeeds unless the thumbnail upload throws, whose message is returned; after an update the title, description, price, discount, content and published flag are the draft's, the educator is the caller, the thumbnail is the old one unless a new one was uploaded, and the id, students and ratings are kept |
| EducatorController.CourseEditsPreserveWf | server/controllers/educatorController.js:25-101 | adding and editing courses keep the store invariant |
| EducatorController.EducatorCourses | server/controllers/educatorController.js:104-113 | exactly the courses whose educator is the caller |
| EducatorController.CompletedSales | server/controllers/educatorController.js:120-128 | exactly the completed purchases of the caller's courses |
| EducatorController.SumAmountsRemove | server/controllers/educatorController.js:130-131 | the earnings sum does not depend on the order in which purchases are added up |
| EducatorController.EducatorDashboardData | server/controllers/educatorController.js:116-161 | earnings sum the completed purchases of the caller's courses; totalCourses counts the caller's courses; one student row per existing student of each of those courses |
| EducatorController.EnrolledStudentsData | server/controllers/educatorController.js:164-188 | one row per completed purchase of the caller's courses, with the course title, the purchase date, and the buyer's id, name and image when the buyer record exists |
| CourseController.GetAllCourse | server/controllers/courseController.js:4-13 | exactly the published courses, each as stored, up to the field projection listed under Left out |
| CourseController.RedactLecture | server/controllers/courseController.js:29-33 | a lecture that is not a free preview loses its URL, and nothing else changes |
| CourseController.GetCourseId | server/controllers/courseController.js:17-40 | a missing course gives "not found"; otherwise the same course with the same chapters (ids, order, titles, and a lecture array exactly where there was one) and the same lectures, where every lecture that is not a free preview has an empty URL and free previews are unchanged |
| CourseController.RedactIdempotent | server/controllers/courseController.js:28-34 | redacting twice equals redacting once |
| CourseController.DeleteCourse | server/controllers/courseController.js:43-69 | no caller gives 401; a missing course gives "not found"; a non-owner gets 403; refusals write nothing; the owner removes exactly that course and every other document is kept |
| CourseController.DeleteCoursePreservesWf | server/controllers/courseController.js:62 | deleting a course keeps the store invariant |
| CourseController.DeleteCourseCatalogue | server/controllers/courseController.js:43-69 | after the owner's deletion the catalogue is the old one without that course; a refused deletion leaves the catalogue as it was |
| AuthMiddleware.ProtectEducator | server/middlewares/authMiddleware.js:4-31 | no caller gives 401; a lookup error gives 500; a role other than "educator" gives 403; the handler runs exactly for a present caller with the role "educator" |
| AuthMiddleware.NoLookupWithoutCaller | server/middlewares/authMiddleware.js:6-13 | without a caller the answer does not depend on the role lookup |
| AppContext.CalculateRating | client/src/context/AppContext.jsx:89-98 | 0 for a missing course or no ratings; otherwise the floor of the mean |
| AppContext.AverageInRange | client/src/context/AppContext.jsx:93-97 | ratings each in 1..5 average to a value in 1..5 |
| AppContext.NoOfLectures | client/src/context/AppContext.jsx:118-126 | the lecture count is the number of lectures across all chapters, where a chapter without an array counts 0 |
| AppContext.CourseMinutes | client/src/context/AppContext.jsx:107-115 | the course's minute total equals the sum of its chapters' minute totals, and 0 for no chapters |
| AppContext.LectureMinutesBySum | client/src/context/AppContext.jsx:101-115 | the running sum over every lecture of every chapter equals the sum of the chapters' own totals |
| AppContext.ChapterMinutes | client/src/context/AppContext.jsx:100-104 | a chapter without a lecture array lasts 0 minutes; non-negative durations give a non-negative total |
| AppContext.MinutesAppend | client/src/context/AppContext.jsx:103 | minutes of two lecture lists in a row add up |
| AppContext.Minutes | client/src/context/AppContext.jsx:102 | non-negative durations add up to a non-negative total |
| AppContext.Reverse | client/src/context/AppContext.jsx:77 | the reversed list has the same length with positions mirrored |
| AppContext.StoredEnrolledList | client/src/context/AppContext.jsx:67-86 | the stored list is the reverse of the server's array, and empty for a non-array, a refused reply or a failed request |
| Player.SearchParam | client/src/pages/student/Player.jsx:40 | `get` returns the value of the first pair with the key, and null when no pair has it |
| Player.YouTubeId | client/src/pages/student/Player.jsx:35-57 | a parse failure gives null; a non-empty v parameter wins; on a short-link host the id is the path piece after the first "/"; otherwise on an embed path it is the piece after the first "/embed/"; an empty piece gives null; anything else gives null; an id is never empty |
| Player.ShortLinkId | client/src/pages/student/Player.jsx:44-46 | on a short-link host without v, "/ID" followed by nothing or by "/..." gives ID |
| Player.EmbedLinkId | client/src/pages/student/Player.jsx:49-51 | on another host without v, a path whose first "/embed/" is followed by ID to the end gives ID |
| Player.FirstLecture | client/src/pages/student/Player.jsx:148-159 | null for no course or when every chapter is empty; otherwise the first lecture of the first non-empty chapter, numbered chapter = index + 1 and lecture 1, with all earlier chapters empty |
| Player.ToggleSection | client/src/pages/student/Player.jsx:73-75 | only the given section flips |
| Player.ToggleTwice | client/src/pages/student/Player.jsx:73-75 | toggling twice restores whether every section is open |
| Player.LastMatch | client/src/pages/student/Player.jsx:60-62 | the index found is the last course with the route id, and None means no such course |
| Player.LastRatingBy | client/src/pages/student/Player.jsx:64-67 | the rating of the last entry by the user, or the previous value when the user has none |
| Player.LastRatingByAppend | client/src/pages/student/Player.jsx:60-70 | scanning two rating lists in a row continues from where the first left off |
| Player.ScanRatings | client/src/pages/student/Player.jsx:64-68 | the inner loop ends on the user's last rating |
| Player.GetCourseData | client/src/pages/student/Player.jsx:59-71 | the shown course is the last enrolled course with the route id, or the previous one when none has it; the initial rating is the user's last rating among those courses |
| Player.SingleMatchRating | client/src/pages/student/Player.jsx:59-71 | when only one enrolled course has the route id, the ratings scanned are that course's |
| Lifecycle.CheckoutLeavesReports | server/controllers/userController.js:93-102 | starting a checkout changes neither the earnings nor the enrolled-students report |
| Lifecycle.SuccessCountsSale | server/controllers/educatorController.js:125-131 | a success event for a purchase not yet completed adds exactly its amount to the educator's earnings, lists it among the educator's enrolled students, and puts the buyer on the dashboard |
| Lifecycle.CompletingCountsSale | server/controllers/educatorController.js:120-148 | any store where one not-yet-completed purchase turned completed, with the same courses and educators and the buyer enrolled, gains exactly that purchase among the completed sales, adds exactly its amount to the earnings, its row to the report and the buyer to the dashboard |
| Lifecycle.FailureUncountsSale | server/controllers/webhooks.js:126-131 | a failure event for a completed purchase removes its amount from the educator's earnings and its row from the report, while the enrolments stay |
| Lifecycle.DoubleDeliveryEnrolsOnce | server/controllers/webhooks.js:98-106 | two deliveries of one success event grow each enrolment list by at most one |
| Lifecycle.ClientListMirrorsServer | client/src/context/AppContext.jsx:75-81 | the client keeps the reverse of the server's enrolled list, and an empty list for a refused request or a missing user record |

## Left out

- Signature cryptography (svix for Clerk, Stripe's `constructEvent`). It is an oracle: the event, or the error it threw.
- Stripe session listing and creation, and the Clerk role lookup. These are oracles or partial maps: the session index maps a payment intent to `metadata.purchaseId`.
- Cloudinary upload. The upload is an oracle that returns the URL or throws.
- `toFixed(2)`, `Math.floor(amount) * 100`, `Math.round` of the earnings and the formatting of durations (`humanizeDuration`). Amounts are exact reals and durations are whole minutes.
- Concurrent webhook deliveries interleaving at `await` points. Each handler is atomic. Writes cut short by a caught error are modelled by `Fault` and `PaymentSuccessRetryConverges`.
- The order of results from `find` queries. The reports are maps keyed by purchase id or by (course, student), so they keep contents but not the order of documents.
- Mongoose `populate` and `select` projections, and `JSON.parse` of `courseData`. The parsed course is a `CourseDraft` record.
- `addCourse` and `updateCourse`: `Course.create` and the `$set` store whatever fields the parsed body carries. The draft carries only the editable fields. A client body that also carries `enrolledStudents` or `courseRatings` would set them on a new course or overwrite them on an existing one; this is not modelled, so "no students or ratings" for a new course holds only for bodies without those fields.
- The Purchase and CourseProgress schemas are not part of this model. A new purchase is assumed `pending` (`DefaultPurchaseStatus`). A new progress record is assumed to have `completed` false (`DefaultProgressCompleted`).
- Store failures (database unavailable) in the user, course and educator handlers. Their `{success: false, message}` path is not modelled. The payment handlers do model them, through `Fault`.
- Store failures in the identity-provider webhook. `clerkWebhooks` answers any store error with 400 and the error's message, which makes the provider redeliver the event. In the model, user.updated and user.deleted always succeed. Only user.created is refused, for a missing or taken id, and its message `UserRejected` stands in for the store's own error text, which is not known here.
- `req.auth.userId` on the educator routes is assumed present. `protectEducator` guarantees it on every route that reaches them (server/routes/educatorRoutes.js). For this reason `UpdateCourse`, `EducatorDashboardData` and `EnrolledStudentsData` require a present caller.
- `AppContext.CalculateRating`: ratings are integers and `courseRatings` is always an array (the schema default). So "ratings missing" is the case of a missing course.
- `courseContent` missing is modelled as the empty chapter list. Every client helper treats the two the same, except that `getFirstLecture` would throw.
- Lecture durations and ratings are integers, not arbitrary JavaScript numbers.
- `updateRoleToEducator` and `getUserCourseProgress`. Both are single pass-through calls (a Clerk metadata write, a progress read) with no logic of their own.
- `fetchAllCourses` and `fetchUserData` in the client context, React rendering and the YouTube player state.
- `MyCourses.jsx`, Express wiring, and the multer limits and MIME filter.

=== FILE: app_context.dfy ===
/** The pure helpers of the client's shared context: rating average, lecture counts, durations, the enrolled list. */
module AppContext {
  import opened Wrappers
  import opened Model

  // ---------------------------------------------------------------------------
  // calculateRating
  // ---------------------------------------------------------------------------

  function SumRatings(rs: seq<RatingEntry>): int
    decreases |rs|
  {
    if rs == [] then 0 else SumRatings(rs[..|rs| - 1]) + rs[|rs| - 1].rating
  }

  /** `calculateRating`: the average rating rounded down, 0 for a missing course or no ratings. */
  function CalculateRating(course: Option<Course>): (r: int)
    ensures course.None? || course.value.courseRatings == [] ==> r == 0
    // floor of the mean: r * n <= sum < (r + 1) * n
    ensures course.Some? && course.value.courseRatings != [] ==>
              var n := |course.value.courseRatings|;
              var total := SumRatings(course.value.courseRatings);
              r * n <= total < (r + 1) * n
  {
    if course.None? || |course.value.courseRatings| == 0 then 0
    else SumRatings(course.value.courseRatings) / |course.value.courseRatings|
  }

  predicate RatingsInRange(rs: seq<RatingEntry>) {
    forall i :: 0 <= i < |rs| ==> 1 <= rs[i].rating <= 5
  }

  lemma {:induction false} SumRatingsBounds(rs: seq<RatingEntry>)
    requires RatingsInRange(rs)
    ensures |rs| <= SumRatings(rs) <= 5 * |rs|
    decreases |rs|
  {
    if rs != [] {
      SumRatingsBounds(rs[..|rs| - 1]);
    }
  }

  /** Ratings that each lie in 1..5 average to a value in 1..5. */
  lemma AverageInRange(c: Course)
    requires c.courseRatings != [] && RatingsInRange(c.courseRatings)
    ensures 1 <= CalculateRating(Some(c)) <= 5
  {
    var n := |c.courseRatings|;
    var total := SumRatings(c.courseRatings);
    var r := CalculateRating(Some(c));
    SumRatingsBounds(c.courseRatings);
    CancelFactor(r, 5, n);
    CancelFactor(1, r, n);
  }

  /** Comparing two multiples of the same positive number compares the factors. */
  lemma CancelFactor(a: int, b: int, n: int)
    requires n > 0
    ensures a * n <= b * n ==> a <= b
    ensures a * n < (b + 1) * n ==> a <= b
  {
    if a > b {
      assert a * n >= (b + 1) * n;
    }
  }

  // ---------------------------------------------------------------------------
  // Lecture counts and durations
  // ---------------------------------------------------------------------------

  /** The lectures of a chapter; a chapter without a lecture array has none. */
  function ChapterLectures(ch: Chapter): seq<Lecture> {
    if ch.chapterContent.Some? then ch.chapterContent.value else []
  }

  /** Every lecture of a course, chapter by chapter, in the order the nested loops visit them. */
  function CourseLectures(chapters: seq<Chapter>): seq<Lecture>
    decreases |chapters|
  {
    if chapters == [] then [] else CourseLectures(chapters[..|chapters| - 1]) + ChapterLectures(chapters[|chapters| - 1])
  }

  /** `calculateNoOfLectures`: lecture arrays' lengths added chapter by chapter. */
  function NoOfLectures(chapters: seq<Chapter>): (r: nat)
    // the count is the number of lectures the course holds
    ensures r == |CourseLectures(chapters)|
    decreases |chapters|
  {
    if chapters == [] then 0
    else
      var last := chapters[|chapters| - 1];
      NoOfLectures(chapters[..|chapters| - 1]) + (if last.chapterContent.Some? then |last.chapterContent.value| else 0)
  }

  /** Every lecture has a duration of zero minutes or more. */
  predicate NonNegativeDurations(ls: seq<Lecture>) {
    forall i :: 0 <= i < |ls| ==> ls[i].lectureDuration >= 0
  }

  /** Minutes of a list of lectures, one duration after another. */
  function Minutes(ls: seq<Lecture>): (r: int)
    ensures NonNegativeDurations(ls) ==> r >= 0
    decreases |ls|
  {
    if ls == [] then 0 else Minutes(ls[..|ls| - 1]) + ls[|ls| - 1].lectureDuration
  }

  lemma {:induction false} MinutesAppend(a: seq<Lecture>, b: seq<Lecture>)
    ensures Minutes(a + b) == Minutes(a) + Minutes(b)
    decreases |b|
  {
    if b == [] {
      assert a + b == a;
    } else {
      assert (a + b)[..|a + b| - 1] == a + b[..|b| - 1];
      MinutesAppend(a, b[..|b| - 1]);
    }
  }

  /** The minute total of `calculateChapterTime`, before formatting. */
  function ChapterMinutes(ch: Chapter): (r: int)
    // a chapter without a lecture array lasts no time; durations of zero or more add up to zero or more
    ensures ch.chapterContent.None? ==> r == 0
    ensures NonNegativeDurations(ChapterLectures(ch)) ==> r >= 0
  {
    Minutes(ChapterLectures(ch))
  }

  function SumChapterMinutes(chapters: seq<Chapter>): int
    decreases |chapters|
  {
    if chapters == [] then 0 else SumChapterMinutes(chapters[..|chapters| - 1]) + ChapterMinutes(chapters[|chapters| - 1])
  }

  /** The running sum over every lecture of every chapter is the sum of the chapters' own totals. */
  lemma {:induction false} LectureMinutesBySum(chapters: seq<Chapter>)
    ensures Minutes(CourseLectures(chapters)) == SumChapterMinutes(chapters)
    decreases |chapters|
  {
    if chapters != [] {
      var init := chapters[..|chapters| - 1];
      LectureMinutesBySum(init);
      MinutesAppend(CourseLectures(init), ChapterLectures(chapters[|chapters| - 1]));
    }
  }

  /** The minute total of `calculateCourseDuration`: one running sum over every lecture of every chapter. */
  function CourseMinutes(chapters: seq<Chapter>): (r: int)
    // a course lasts as long as its chapters together
    ensures r == SumChapterMinutes(chapters)
    ensures chapters == [] ==> r == 0
  {
    LectureMinutesBySum(chapters);
    Minutes(CourseLectures(chapters))
  }

  // ---------------------------------------------------------------------------
  // fetchUserEnrolledCourses
  // ---------------------------------------------------------------------------

  function Reverse<T>(xs: seq<T>): (r: seq<T>)
    ensures |r| == |xs|
    ensures forall i :: 0 <= i < |xs| ==> r[i] == xs[|xs| - 1 - i]
    decreases |xs|
  {
    if xs == [] then [] else [xs[|xs| - 1]] + Reverse(xs[..|xs| - 1])
  }

  /**
   * The enrolled list the client keeps after asking the server. `reply` is
   * the request's outcome: the JSON body (whose `enrolledCourses` is None
   * when it is not an array) or the error axios threw.
   */
  function StoredEnrolledList(reply: Oracle<Response<Option<seq<Course>>>>): (r: seq<Course>)
    ensures reply.Returned? && reply.value.Ok? && reply.value.value.Some? ==>
              |r| == |reply.value.value.value|
              && forall i :: 0 <= i < |r| ==> r[i] == reply.value.value.value[|r| - 1 - i]
    ensures !(reply.Returned? && reply.value.Ok? && reply.value.value.Some?) ==> r == []
  {
    match reply
    case Threw(_) => []
    case Returned(Err(_, _)) => []
    case Returned(Ok(list)) => Reverse(list.GetOr([]))
  }
}

=== FILE: auth_middleware.dfy ===
/** The educator gate in front of the educator routes and course deletion. */
module AuthMiddleware {
  import opened Wrappers
  import opened Model

  const Educator := "educator"
  const LoginRequired := "Unauthorized! Login required."
  const AccessDenied := "Unauthorized Access!"

  /** The middleware's decision: pass on to the handler, or answer with a status and message. */
  datatype Gate = Next | Deny(status: nat, message: string)

  /**
   * `protectEducator`. `lookup` is what asking the identity provider for the
   * caller produced: the `publicMetadata.role` claim (None when absent), or
   * the error it threw. The lookup happens only for a present caller.
   */
  function ProtectEducator(caller: UserId, lookup: Oracle<Option<string>>): (r: Gate)
    ensures !Present(caller) ==> r == Deny(401, LoginRequired)
    ensures Present(caller) && lookup.Threw? ==> r == Deny(500, lookup.message)
    ensures Present(caller) && lookup.Returned? && lookup.value != Some(Educator) ==> r == Deny(403, AccessDenied)
    // the handler runs exactly for a present caller whose role is "educator"
    ensures r == Next <==> Present(caller) && lookup == Returned(Some(Educator))
  {
    if !Present(caller) then Deny(401, LoginRequired)
    else match lookup
      case Threw(message) => Deny(500, message)
      case Returned(role) => if role != Some(Educator) then Deny(403, AccessDenied) else Next
  }

  /** Without a caller the answer is the same whatever the identity provider would say: it is not asked. */
  lemma NoLookupWithoutCaller(l1: Oracle<Option<string>>, l2: Oracle<Option<string>>)
    ensures ProtectEducator("", l1) == ProtectEducator("", l2)
  {
  }
}

=== FILE: course_controller.dfy ===
/** The public course handlers (catalogue and course page) and course deletion. */
module CourseController {
  import opened Wrappers
  import opened Model

  const CourseNotFound := "Course not found!"
  const NotAllowed := "Not allowed!"
  const CourseDeleted := "Course deleted successfully!"

  /** `getAllCourse`: exactly the published courses. */
  function GetAllCourse(s: Store): (r: map<CourseId, Course>)
    ensures forall id :: id in r <==> id in s.courses && s.courses[id].isPublished
    ensures forall id :: id in r ==> r[id] == s.courses[id]
  {
    map id | id in s.courses && s.courses[id].isPublished :: s.courses[id]
  }

  /** A lecture as the course page shows it: the URL is blanked unless the lecture is a free preview. */
  function RedactLecture(l: Lecture): (r: Lecture)
    ensures r.lectureUrl == (if l.isPreviewFree then l.lectureUrl else "")
    ensures r.(lectureUrl := l.lectureUrl) == l
  {
    if l.isPreviewFree then l else l.(lectureUrl := "")
  }

  function RedactLectures(ls: seq<Lecture>): (r: seq<Lecture>)
    ensures |r| == |ls|
    ensures forall j :: 0 <= j < |ls| ==> r[j] == RedactLecture(ls[j])
  {
    seq(|ls|, j requires 0 <= j < |ls| => RedactLecture(ls[j]))
  }

  function RedactChapter(ch: Chapter): (r: Chapter)
    ensures r.(chapterContent := ch.chapterContent) == ch
    ensures r.chapterContent.None? <==> ch.chapterContent.None?
    ensures ch.chapterContent.Some? ==> r.chapterContent == Some(RedactLectures(ch.chapterContent.value))
  {
    match ch.chapterContent
    case None => ch
    case Some(ls) => ch.(chapterContent := Some(RedactLectures(ls)))
  }

  /** The course with every lecture that is not a free preview stripped of its URL. */
  function Redact(c: Course): (r: Course)
    ensures r.(courseContent := c.courseContent) == c
    ensures |r.courseContent| == |c.courseContent|
    ensures forall i :: 0 <= i < |c.courseContent| ==> r.courseContent[i] == RedactChapter(c.courseContent[i])
  {
    c.(courseContent := seq(|c.courseContent|, i requires 0 <= i < |c.courseContent| => RedactChapter(c.courseContent[i])))
  }

  /** Lecture `j` of chapter `i` of a course. */
  predicate HasLecture(c: Course, i: int, j: int) {
    0 <= i < |c.courseContent| && c.courseContent[i].chapterContent.Some?
    && 0 <= j < |c.courseContent[i].chapterContent.value|
  }

  function LectureAt(c: Course, i: int, j: int): Lecture
    requires HasLecture(c, i, j)
  {
    c.courseContent[i].chapterContent.value[j]
  }

  /** `getCourseId`: the course page. */
  function GetCourseId(s: Store, id: CourseId): (r: Response<Course>)
    ensures id !in s.courses ==> r == Err(200, CourseNotFound)
    ensures id in s.courses ==> r.Ok?
    // same course, same chapters, same number of lectures in each
    ensures r.Ok? ==> r.value.(courseContent := s.courses[id].courseContent) == s.courses[id]
    ensures r.Ok? ==> |r.value.courseContent| == |s.courses[id].courseContent|
    ensures r.Ok? ==> forall i, j :: HasLecture(s.courses[id], i, j) <==> HasLecture(r.value, i, j)
    // every chapter keeps its id, order and title, and has a lecture array exactly when it had one
    ensures r.Ok? ==> forall i :: 0 <= i < |r.value.courseContent| ==>
              && r.value.courseContent[i].(chapterContent := s.courses[id].courseContent[i].chapterContent)
                 == s.courses[id].courseContent[i]
              && (r.value.courseContent[i].chapterContent.None? <==> s.courses[id].courseContent[i].chapterContent.None?)
    // every lecture that is not a free preview has an empty URL; every other field of every lecture is kept
    ensures r.Ok? ==> forall i, j :: HasLecture(r.value, i, j) ==>
              var l := LectureAt(s.courses[id], i, j);
              var l' := LectureAt(r.value, i, j);
              && (!l'.isPreviewFree ==> l'.lectureUrl == "")
              && (l.isPreviewFree ==> l' == l)
              && l'.(lectureUrl := l.lectureUrl) == l
  {
    if id !in s.courses then Err(200, CourseNotFound) else Ok(Redact(s.courses[id]))
  }

  /** Redacting a redacted course changes nothing. */
  lemma RedactIdempotent(c: Course)
    ensures Redact(Redact(c)) == Redact(c)
  {
    var r := Redact(c);
    var rr := Redact(r);
    assert |rr.courseContent| == |r.courseContent|;
    forall i | 0 <= i < |r.courseContent|
      ensures rr.courseContent[i] == r.courseContent[i]
    {
      var ch := r.courseContent[i];
      if ch.chapterContent.Some? {
        var ls := ch.chapterContent.value;
        assert RedactLectures(ls) == ls;
      }
    }
  }

  /** `deleteCourse`: only the owner may delete, and only that course goes. */
  function DeleteCourse(s: Store, caller: UserId, courseId: CourseId): (r: Step<string>)
    ensures !Present(caller) ==> r == Step(s, Err(401, Unauthorized))
    ensures r.response.Err? ==> r.store == s
    ensures Present(caller) && courseId !in s.courses ==> r.response == Err(200, CourseNotFound)
    ensures Present(caller) && courseId in s.courses && s.courses[courseId].educator != caller ==>
              r.response == Err(403, NotAllowed)
    ensures r.response.Ok? <==> Present(caller) && courseId in s.courses && s.courses[courseId].educator == caller
    // the owner removes exactly that course; every other course, and every other collection, is as before
    ensures r.response.Ok? ==> r.store.courses.Keys == s.courses.Keys - {courseId}
    ensures AgreeExcept(s.courses, r.store.courses, courseId)
    ensures r.store.users == s.users && r.store.purchases == s.purchases && r.store.progress == s.progress
  {
    if !Present(caller) then Step(s, Err(401, Unauthorized))
    else if courseId !in s.courses then Step(s, Err(200, CourseNotFound))
    else if s.courses[courseId].educator != caller then Step(s, Err(403, NotAllowed))
    else Step(s.(courses := s.courses - {courseId}), Ok(CourseDeleted))
  }

  /** Deleting a course keeps the store invariant. */
  lemma DeleteCoursePreservesWf(s: Store, caller: UserId, courseId: CourseId)
    requires Wf(s)
    ensures Wf(DeleteCourse(s, caller, courseId).store)
  {
  }

  /** After a deletion the catalogue is the old one without that course; a refused deletion leaves it as it was. */
  lemma DeleteCourseCatalogue(s: Store, caller: UserId, courseId: CourseId)
    ensures var r := DeleteCourse(s, caller, courseId);
            GetAllCourse(r.store) == if r.response.Ok? then GetAllCourse(s) - {courseId} else GetAllCourse(s)
  {
  }
}

=== FILE: educator_controller.dfy ===
/**
 * The educator handlers: adding and editing courses, and the two reports.
 * Every route that reaches them passes `protectEducator` first, so the
 * caller id is present.
 */
module EducatorController {
  import opened Wrappers
  import opened Model

  const ThumbnailNotAttached := "Thumbnail Not Attached"
  const CourseIdMissing := "CourseId missing!"
  const CourseNotFound := "Course not found!"
  const NotAllowed := "Not allowed!"

  /** A new course built from a draft: the caller as educator, the uploaded thumbnail, no students and no ratings yet. */
  function NewCourse(id: CourseId, draft: CourseDraft, educator: UserId, thumbnail: string): Course {
    Course(id, draft.courseTitle, draft.courseDescription, draft.coursePrice, draft.discount, draft.isPublished,
           educator, thumbnail, draft.courseContent, [], [])
  }

  /** The draft's fields written over an existing course; its id, students and ratings are kept. */
  function ApplyDraft(c: Course, draft: CourseDraft, educator: UserId, thumbnail: string): Course {
    c.(courseTitle := draft.courseTitle, courseDescription := draft.courseDescription,
       coursePrice := draft.coursePrice, discount := draft.discount, isPublished := draft.isPublished,
       courseContent := draft.courseContent, educator := educator, courseThumbnail := thumbnail)
  }

  /**
   * `addCourse`. `image` is None when no thumbnail file is attached, and
   * otherwise what the asset host's upload produced (its URL or its error);
   * `newId` is the id the store assigns.
   */
  function AddCourse(s: Store, caller: UserId, draft: CourseDraft, image: Option<Oracle<string>>, newId: CourseId): (r: Step<Course>)
    requires newId !in s.courses
    // without a thumbnail, or when the upload fails, no course is created
    ensures image.None? ==> r == Step(s, Err(200, ThumbnailNotAttached))
    ensures r.response.Err? ==> r.store == s
    ensures r.response.Ok? <==> image.Some? && image.value.Returned?
    // a created course belongs to the caller, carries the uploaded thumbnail and starts with no students or ratings
    ensures r.response.Ok? ==>
              && r.store.courses.Keys == s.courses.Keys + {newId}
              && r.store.courses[newId] == r.response.value
              && r.response.value.id == newId
              && r.response.value.educator == caller
              && r.response.value.courseThumbnail == image.value.value
              && r.response.value.enrolledStudents == [] && r.response.value.courseRatings == []
              && r.response.value.courseContent == draft.courseContent
              && r.response.value.isPublished == draft.isPublished
              && r.response.value.courseTitle == draft.courseTitle
              && r.response.value.courseDescription == draft.courseDescription
              && r.response.value.coursePrice == draft.coursePrice
              && r.response.value.discount == draft.discount
    ensures AgreeExcept(s.courses, r.store.courses, newId)
    ensures r.store.users == s.users && r.store.purchases == s.purchases && r.store.progress == s.progress
  {
    match image
    case None => Step(s, Err(200, ThumbnailNotAttached))
    case Some(Threw(message)) => Step(s, Err(200, message))
    case Some(Returned(url)) =>
      var c := NewCourse(newId, draft, caller, url);
      Step(s.(courses := s.courses[newId := c]), Ok(c))
  }

  /** `updateCourse`: the owner rewrites a course; the educator field stays pinned to the caller. */
  function UpdateCourse(s: Store, caller: UserId, courseId: CourseId, draft: CourseDraft, image: Option<Oracle<string>>): (r: Step<Course>)
    requires Present(caller)
    // refusals write nothing
    ensures r.response.Err? ==> r.store == s
    ensures !Present(courseId) ==> r.response == Err(200, CourseIdMissing)
    ensures Present(courseId) && courseId !in s.courses ==> r.response == Err(200, CourseNotFound)
    ensures Present(courseId) && courseId in s.courses && s.courses[courseId].educator != caller ==>
              r.response == Err(403, NotAllowed)
    ensures r.response.Ok? ==> Present(courseId) && courseId in s.courses && s.courses[courseId].educator == caller
    // the owner's update goes through unless the thumbnail upload throws, whose message is returned
    ensures Present(courseId) && courseId in s.courses && s.courses[courseId].educator == caller ==>
              && ((image.None? || image.value.Returned?) ==> r.response.Ok?)
              && (image.Some? && image.value.Threw? ==> r.response == Err(200, image.value.message))
    // the updated course: educator is the caller, the old thumbnail unless a new one was uploaded,
    // and the id, students and ratings of the old course
    ensures r.response.Ok? ==>
              var old_c := s.courses[courseId];
              var c := r.response.value;
              && r.store.courses.Keys == s.courses.Keys
              && r.store.courses[courseId] == c
              && c.educator == caller
              && (image.None? ==> c.courseThumbnail == old_c.courseThumbnail)
              && (image.Some? ==> image.value.Returned? && c.courseThumbnail == image.value.value)
              && c.id == old_c.id && c.enrolledStudents == old_c.enrolledStudents && c.courseRatings == old_c.courseRatings
              && c.courseContent == draft.courseContent && c.isPublished == draft.isPublished
              && c.coursePrice == draft.coursePrice && c.discount == draft.discount
              && c.courseTitle == draft.courseTitle && c.courseDescription == draft.courseDescription
    ensures AgreeExcept(s.courses, r.store.courses, courseId)
    ensures r.store.users == s.users && r.store.purchases == s.purchases && r.store.progress == s.progress
  {
    if !Present(courseId) then Step(s, Err(200, CourseIdMissing))
    else if courseId !in s.courses then Step(s, Err(200, CourseNotFound))
    else
      var old_c := s.courses[courseId];
      if old_c.educator != caller then Step(s, Err(403, NotAllowed))
      else match image
        case Some(Threw(message)) => Step(s, Err(200, message))
        case Some(Returned(url)) =>
          var c := ApplyDraft(old_c, draft, caller, url);
          Step(s.(courses := s.courses[courseId := c]), Ok(c))
        case None =>
          var c := ApplyDraft(old_c, draft, caller, old_c.courseThumbnail);
          Step(s.(courses := s.courses[courseId := c]), Ok(c))
  }

  /** Adding and editing courses keep the store invariant. */
  lemma CourseEditsPreserveWf(s: Store, caller: UserId, courseId: CourseId, draft: CourseDraft,
                              image: Option<Oracle<string>>, newId: CourseId)
    requires Wf(s) && Present(caller) && newId !in s.courses
    ensures Wf(AddCourse(s, caller, draft, image, newId).store)
    ensures Wf(UpdateCourse(s, caller, courseId, draft, image).store)
  {
  }

  /** `getEducatorCourses`: the caller's courses. */
  function EducatorCourses(s: Store, educator: UserId): (r: map<CourseId, Course>)
    ensures forall id :: id in r <==> id in s.courses && s.courses[id].educator == educator
    ensures forall id :: id in r ==> r[id] == s.courses[id]
  {
    map id | id in s.courses && s.courses[id].educator == educator :: s.courses[id]
  }

  /** The purchases the reports read: completed, and for a course of `educator`. */
  function CompletedSales(s: Store, educator: UserId): (r: map<PurchaseId, Purchase>)
    ensures forall pid :: pid in r <==>
              pid in s.purchases && s.purchases[pid].status == Completed
              && s.purchases[pid].courseId in EducatorCourses(s, educator)
    ensures forall pid :: pid in r ==> r[pid] == s.purchases[pid]
  {
    var owned := EducatorCourses(s, educator);
    map pid | pid in s.purchases && s.purchases[pid].status == Completed && s.purchases[pid].courseId in owned
      :: s.purchases[pid]
  }

  /** Some purchase id of a non-empty map. */
  ghost function AnyKey(m: map<PurchaseId, Purchase>): (pid: PurchaseId)
    requires |m| > 0
    ensures pid in m
  {
    var pid :| pid in m; pid
  }

  /** Sum of the amounts of a set of purchases. */
  ghost function SumAmounts(m: map<PurchaseId, Purchase>): real
    decreases |m|
  {
    if |m| == 0 then 0.0
    else
      var pid := AnyKey(m);
      m[pid].amount + SumAmounts(m - {pid})
  }

  /** The sum does not depend on which purchase is taken first. */
  lemma {:induction false} SumAmountsRemove(m: map<PurchaseId, Purchase>, pid: PurchaseId)
    requires pid in m
    ensures SumAmounts(m) == m[pid].amount + SumAmounts(m - {pid})
    decreases |m|
  {
    var q := AnyKey(m);
    assert SumAmounts(m) == m[q].amount + SumAmounts(m - {q});
    if q != pid {
      var mq := m - {q};
      var mp := m - {pid};
      assert |mq| == |m| - 1 by { assert mq.Keys == m.Keys - {q}; }
      assert |mp| == |m| - 1 by { assert mp.Keys == m.Keys - {pid}; }
      assert pid in mq && mq[pid] == m[pid];
      assert q in mp && mp[q] == m[q];
      SumAmountsRemove(mq, pid);
      SumAmountsRemove(mp, q);
      assert mq - {pid} == mp - {q};
    }
  }

  /** A student row of the dashboard. */
  datatype StudentRow = StudentRow(courseTitle: string, name: string, imageUrl: string)

  datatype Dashboard = Dashboard(
    totalEarnings: real,
    enrolledStudentsData: map<(CourseId, UserId), StudentRow>,
    totalCourses: nat)

  /** Pairs (course, student) of the dashboard: each existing user listed as a student of a course of `educator`. */
  function StudentPairs(s: Store, educator: UserId): set<(CourseId, UserId)> {
    set c, u | c in s.courses && s.courses[c].educator == educator
               && u in s.courses[c].enrolledStudents && u in s.users :: (c, u)
  }

  /**
   * `educatorDashboardData`: earnings over completed purchases of the
   * caller's courses, one row per existing student of each of those courses,
   * and the number of courses.
   */
  ghost function EducatorDashboardData(s: Store, educator: UserId): (r: Dashboard)
    requires Present(educator)
    ensures r.totalCourses == |EducatorCourses(s, educator)|
    ensures r.totalEarnings == SumAmounts(CompletedSales(s, educator))
    ensures forall c, u :: (c, u) in r.enrolledStudentsData <==>
              c in s.courses && s.courses[c].educator == educator && u in s.courses[c].enrolledStudents && u in s.users
    ensures forall c, u :: (c, u) in r.enrolledStudentsData ==>
              r.enrolledStudentsData[(c, u)] == StudentRow(s.courses[c].courseTitle, s.users[u].name, s.users[u].imageUrl)
  {
    var rows := map k | k in StudentPairs(s, educator) :: StudentRow(s.courses[k.0].courseTitle, s.users[k.1].name, s.users[k.1].imageUrl);
    Dashboard(SumAmounts(CompletedSales(s, educator)), rows, |EducatorCourses(s, educator)|)
  }

  /** The student a report row shows: the buyer's name and image, or nothing when the buyer record is gone. */
  datatype StudentView = StudentView(id: UserId, name: string, imageUrl: string)

  datatype EnrolledRow = EnrolledRow(student: Option<StudentView>, courseTitle: string, purchaseDate: int)

  /** `getEnrolledStudentsData`: one row per completed purchase of the caller's courses. */
  function EnrolledStudentsData(s: Store, educator: UserId): (r: map<PurchaseId, EnrolledRow>)
    requires Present(educator)
    ensures r.Keys == CompletedSales(s, educator).Keys
    ensures forall pid :: pid in r ==>
              var p := s.purchases[pid];
              && r[pid].courseTitle == s.courses[p.courseId].courseTitle
              && r[pid].purchaseDate == p.createdAt
              && (r[pid].student.Some? <==> p.userId in s.users)
              && (r[pid].student.Some? ==>
                    && r[pid].student.value.id == p.userId
                    && r[pid].student.value.name == s.users[p.userId].name
                    && r[pid].student.value.imageUrl == s.users[p.userId].imageUrl)
  {
    var sales := CompletedSales(s, educator);
    map pid | pid in sales ::
      var p := sales[pid];
      var student := if p.userId in s.users
                     then Some(StudentView(p.userId, s.users[p.userId].name, s.users[p.userId].imageUrl))
                     else None;
      EnrolledRow(student, s.courses[p.courseId].courseTitle, p.createdAt)
  }
}

=== FILE: lifecycle.dfy ===
/**
 * The purchase lifecycle across handlers: checkout creates a pending
 * record, the payment webhook completes or fails it, and the educator's
 * reports and the student's client see the result.
 */
module Lifecycle {
  import opened Wrappers
  import opened Model
  import Webhooks
  import UserController
  import EducatorController
  import AppContext

  /** Starting a checkout adds a record that is not completed, so no report changes. */
  lemma CheckoutLeavesReports(s: Store, caller: UserId, courseId: CourseId, newId: PurchaseId, now: int,
                              checkout: Oracle<string>, educator: UserId)
    requires newId !in s.purchases && Present(educator)
    ensures var s' := UserController.PurchaseCourse(s, caller, courseId, newId, now, checkout).store;
            && EducatorController.CompletedSales(s', educator) == EducatorController.CompletedSales(s, educator)
            && EducatorController.EducatorDashboardData(s', educator).totalEarnings
               == EducatorController.EducatorDashboardData(s, educator).totalEarnings
            && EducatorController.EnrolledStudentsData(s', educator) == EducatorController.EnrolledStudentsData(s, educator)
  {
    var s' := UserController.PurchaseCourse(s, caller, courseId, newId, now, checkout).store;
    assert s'.courses == s.courses;
    assert EducatorController.EducatorCourses(s', educator) == EducatorController.EducatorCourses(s, educator);
    var a := EducatorController.CompletedSales(s', educator);
    var b := EducatorController.CompletedSales(s, educator);
    assert newId in s'.purchases ==> s'.purchases[newId].status == DefaultPurchaseStatus;
    assert a.Keys == b.Keys;
    assert a == b;
    var ra := EducatorController.EnrolledStudentsData(s', educator);
    var rb := EducatorController.EnrolledStudentsData(s, educator);
    assert ra.Keys == rb.Keys;
    forall pid | pid in ra
      ensures ra[pid] == rb[pid]
    {
      assert a[pid] == b[pid];
    }
  }

  /**
   * A success event for a purchase that was not yet completed adds exactly
   * its amount to the earnings of the course's educator, lists it among that
   * educator's enrolled students, and puts the buyer on the dashboard.
   */
  lemma SuccessCountsSale(s: Store, sessions: Webhooks.SessionIndex, intent: string)
    requires Webhooks.Correlate(s, sessions, intent).Some?
    requires Webhooks.Enrollable(s, Webhooks.Correlate(s, sessions, intent).value)
    requires s.purchases[Webhooks.Correlate(s, sessions, intent).value].status != Completed
    requires Present(s.courses[s.purchases[Webhooks.Correlate(s, sessions, intent).value].courseId].educator)
    ensures var pid := Webhooks.Correlate(s, sessions, intent).value;
            var p := s.purchases[pid];
            var e := s.courses[p.courseId].educator;
            var s' := Webhooks.HandlePaymentSuccess(s, sessions, intent, Webhooks.NoFault);
            && EducatorController.EducatorDashboardData(s', e).totalEarnings
               == EducatorController.EducatorDashboardData(s, e).totalEarnings + p.amount
            && pid in EducatorController.EnrolledStudentsData(s', e)
            && (p.courseId, p.userId) in EducatorController.EducatorDashboardData(s', e).enrolledStudentsData
  {
    var pid := Webhooks.Correlate(s, sessions, intent).value;
    var p := s.purchases[pid];
    var s' := Webhooks.HandlePaymentSuccess(s, sessions, intent, Webhooks.NoFault);
    assert s'.purchases == s.purchases[pid := p.(status := Completed)];
    assert forall c :: c in s'.courses ==> s'.courses[c].educator == s.courses[c].educator;
    CompletingCountsSale(s, s', pid);
  }

  /**
   * Any store that differs from `s` by one purchase turning completed, with
   * the same courses and educators and the buyer enrolled, shows that sale in
   * the educator's reports, and the completed sales gain that purchase and
   * nothing else.
   */
  lemma CompletingCountsSale(s: Store, t: Store, pid: PurchaseId)
    requires pid in s.purchases && s.purchases[pid].status != Completed
    requires s.purchases[pid].courseId in s.courses && Present(s.courses[s.purchases[pid].courseId].educator)
    requires t.purchases == s.purchases[pid := s.purchases[pid].(status := Completed)]
    requires t.courses.Keys == s.courses.Keys
    requires forall c :: c in t.courses ==> t.courses[c].educator == s.courses[c].educator
    requires s.purchases[pid].userId in t.users
    requires s.purchases[pid].userId in t.courses[s.purchases[pid].courseId].enrolledStudents
    ensures var p := s.purchases[pid];
            var e := s.courses[p.courseId].educator;
            && EducatorController.EducatorDashboardData(t, e).totalEarnings
               == EducatorController.EducatorDashboardData(s, e).totalEarnings + p.amount
            && EducatorController.CompletedSales(t, e).Keys == EducatorController.CompletedSales(s, e).Keys + {pid}
            && pid in EducatorController.EnrolledStudentsData(t, e)
            && (p.courseId, p.userId) in EducatorController.EducatorDashboardData(t, e).enrolledStudentsData
  {
    var p := s.purchases[pid];
    var e := s.courses[p.courseId].educator;
    var before := EducatorController.CompletedSales(s, e);
    var after := EducatorController.CompletedSales(t, e);
    assert EducatorController.EducatorCourses(t, e).Keys == EducatorController.EducatorCourses(s, e).Keys;
    assert pid in after && pid !in before;
    assert after - {pid} == before;
    EducatorController.SumAmountsRemove(after, pid);
  }

  /**
   * A failure event for a completed purchase (there is no guard against it)
   * takes the sale back out of its educator's earnings and enrolled-students
   * report, although the buyer stays enrolled.
   */
  lemma FailureUncountsSale(s: Store, sessions: Webhooks.SessionIndex, intent: string)
    requires Webhooks.Correlate(s, sessions, intent).Some?
    requires s.purchases[Webhooks.Correlate(s, sessions, intent).value].status == Completed
    requires s.purchases[Webhooks.Correlate(s, sessions, intent).value].courseId in s.courses
    requires Present(s.courses[s.purchases[Webhooks.Correlate(s, sessions, intent).value].courseId].educator)
    ensures var pid := Webhooks.Correlate(s, sessions, intent).value;
            var p := s.purchases[pid];
            var e := s.courses[p.courseId].educator;
            var s' := Webhooks.HandlePaymentFailed(s, sessions, intent, Webhooks.NoFault);
            && EducatorController.EducatorDashboardData(s', e).totalEarnings + p.amount
               == EducatorController.EducatorDashboardData(s, e).totalEarnings
            && pid !in EducatorController.EnrolledStudentsData(s', e)
            && s'.courses == s.courses && s'.users == s.users
  {
    var pid := Webhooks.Correlate(s, sessions, intent).value;
    var p := s.purchases[pid];
    var e := s.courses[p.courseId].educator;
    var s' := Webhooks.HandlePaymentFailed(s, sessions, intent, Webhooks.NoFault);
    var before := EducatorController.CompletedSales(s, e);
    var after := EducatorController.CompletedSales(s', e);
    assert pid in before && pid !in after;
    assert before - {pid} == after;
    EducatorController.SumAmountsRemove(before, pid);
  }

  /** Two deliveries of the same success event grow each enrolment list by at most one entry. */
  lemma DoubleDeliveryEnrolsOnce(s: Store, sessions: Webhooks.SessionIndex, intent: string)
    requires Webhooks.Correlate(s, sessions, intent).Some?
    requires Webhooks.Enrollable(s, Webhooks.Correlate(s, sessions, intent).value)
    ensures var p := s.purchases[Webhooks.Correlate(s, sessions, intent).value];
            var once := Webhooks.HandlePaymentSuccess(s, sessions, intent, Webhooks.NoFault);
            var twice := Webhooks.HandlePaymentSuccess(once, sessions, intent, Webhooks.NoFault);
            && |twice.courses[p.courseId].enrolledStudents|
               == |s.courses[p.courseId].enrolledStudents| + (if p.userId in s.courses[p.courseId].enrolledStudents then 0 else 1)
            && |twice.users[p.userId].enrolledCourses|
               == |s.users[p.userId].enrolledCourses| + (if p.courseId in s.users[p.userId].enrolledCourses then 0 else 1)
  {
    Webhooks.PaymentSuccessIdempotent(s, sessions, intent);
  }

  /** The server's enrolled-courses reply as the client receives it: the list is always an array. */
  function AsJson(r: Response<seq<Course>>): Response<Option<seq<Course>>> {
    match r
    case Ok(list) => Ok(Some(list))
    case Err(status, message) => Err(status, message)
  }

  /** The client keeps the server's enrolled list in reverse, and an empty list for a refused request. */
  lemma ClientListMirrorsServer(s: Store, caller: UserId)
    ensures var server := UserController.UserEnrolledCourses(s, caller);
            var client := AppContext.StoredEnrolledList(Returned(AsJson(server)));
            && (server.Ok? ==> client == AppContext.Reverse(server.value))
            && (server.Err? ==> client == [])
            && (Present(caller) && caller !in s.users ==> client == [])
  {
  }
}

=== FILE: model.dfy ===
/**
 * The documents of the course marketplace and the store that holds them.
 *
 * Every collection is a map from document id to document. An identifier the
 * request does not carry (undefined, null or the empty string, all falsy in
 * JavaScript) is written as "".
 */
module Model {
  import opened Wrappers

  type UserId = string
  type CourseId = string
  type PurchaseId = string
  type LectureId = string

  /** A request identifier used as a JavaScript condition: only "" is falsy. */
  predicate Present(id: string) {
    id != ""
  }

  /** Status of a purchase record. */
  datatype Status = Pending | Completed | Failed

  /**
   * Status a newly created purchase receives from the Purchase schema's
   * default. The schema is not part of this model; `pending` is assumed.
   */
  const DefaultPurchaseStatus: Status := Pending

  datatype User = User(
    id: UserId,
    name: string,
    email: string,
    imageUrl: string,
    enrolledCourses: seq<CourseId>)

  /** Durations are whole minutes. */
  datatype Lecture = Lecture(
    lectureId: LectureId,
    lectureTitle: string,
    lectureDuration: int,
    lectureUrl: string,
    isPreviewFree: bool,
    lectureOrder: int)

  /** `chapterContent` is None when the chapter carries no lecture array. */
  datatype Chapter = Chapter(
    chapterId: string,
    chapterOrder: int,
    chapterTitle: string,
    chapterContent: Option<seq<Lecture>>)

  datatype RatingEntry = RatingEntry(userId: UserId, rating: int)

  datatype Course = Course(
    id: CourseId,
    courseTitle: string,
    courseDescription: string,
    coursePrice: real,
    discount: real,
    isPublished: bool,
    educator: UserId,
    courseThumbnail: string,
    courseContent: seq<Chapter>,
    enrolledStudents: seq<UserId>,
    courseRatings: seq<RatingEntry>)

  /** The course fields an educator submits when adding or editing a course. */
  datatype CourseDraft = CourseDraft(
    courseTitle: string,
    courseDescription: string,
    coursePrice: real,
    discount: real,
    isPublished: bool,
    courseContent: seq<Chapter>)

  datatype Purchase = Purchase(
    courseId: CourseId,
    userId: UserId,
    amount: real,
    status: Status,
    createdAt: int)

  /** Course progress is looked up by the pair (userId, courseId). */
  datatype ProgressKey = ProgressKey(userId: UserId, courseId: CourseId)

  datatype Progress = Progress(
    userId: UserId,
    courseId: CourseId,
    completed: bool,
    lectureCompleted: seq<LectureId>)

  datatype Store = Store(
    users: map<UserId, User>,
    courses: map<CourseId, Course>,
    purchases: map<PurchaseId, Purchase>,
    progress: map<ProgressKey, Progress>)

  /**
   * What a handler sends back: a successful JSON body carrying a value, or a
   * failure with its HTTP status and message (a `{success: false}` body sent
   * with the default status is Err(200, message)).
   */
  datatype Response<+T> = Ok(value: T) | Err(status: nat, message: string)

  /** A handler's effect: the store afterwards and the response. */
  datatype Step<+T> = Step(store: Store, response: Response<T>)

  const Unauthorized := "Unauthorized!"

  /** No element occurs twice. */
  predicate NoDup<T(==)>(s: seq<T>) {
    forall i, j :: 0 <= i < j < |s| ==> s[i] != s[j]
  }

  /** At most one rating entry per user. */
  predicate OneRatingPerUser(rs: seq<RatingEntry>) {
    forall i, j :: 0 <= i < j < |rs| ==> rs[i].userId != rs[j].userId
  }

  predicate UserWf(id: UserId, u: User) {
    u.id == id && NoDup(u.enrolledCourses)
  }

  predicate CourseWf(id: CourseId, c: Course) {
    c.id == id && NoDup(c.enrolledStudents) && OneRatingPerUser(c.courseRatings)
  }

  predicate ProgressWf(k: ProgressKey, p: Progress) {
    p.userId == k.userId && p.courseId == k.courseId && NoDup(p.lectureCompleted)
  }

  /**
   * The store invariant every handler keeps: documents sit under their own
   * id, progress records under their own (user, course) pair, and the
   * enrolment, rating and completed-lecture lists hold no duplicates.
   */
  predicate Wf(s: Store) {
    && (forall u :: u in s.users ==> UserWf(u, s.users[u]))
    && (forall c :: c in s.courses ==> CourseWf(c, s.courses[c]))
    && (forall k :: k in s.progress ==> ProgressWf(k, s.progress[k]))
  }

  /** Appends `x` unless it is already present (`if (!xs.includes(x)) xs.push(x)`). */
  function AddOnce(xs: seq<string>, x: string): (r: seq<string>)
    ensures x in r
    ensures forall y :: y in r <==> y in xs || y == x
    ensures x in xs ==> r == xs
    ensures x !in xs ==> |r| == |xs| + 1 && r[..|xs|] == xs
    ensures NoDup(xs) ==> NoDup(r)
  {
    if x in xs then xs else xs + [x]
  }

  /** Frame condition: two maps agree everywhere except possibly at key `k`. */
  ghost predicate AgreeExcept<K(!new), V>(a: map<K, V>, b: map<K, V>, k: K) {
    forall x :: x != k ==> (x in a <==> x in b) && (x in a ==> a[x] == b[x])
  }
}

=== FILE: player.dfy ===
/** The pure logic of the course player page. */
module Player {
  import opened Wrappers
  import opened Model
  import Text

  // ---------------------------------------------------------------------------
  // getYouTubeId
  // ---------------------------------------------------------------------------

  /** A URL as the URL parser splits it; query pairs in their order in the URL. */
  datatype Url = Url(hostname: string, pathname: string, searchParams: seq<(string, string)>)

  /** `searchParams.get(key)`: the value of the first pair with that key. */
  function SearchParam(ps: seq<(string, string)>, key: string): (r: Option<string>)
    ensures r.None? <==> forall i :: 0 <= i < |ps| ==> ps[i].0 != key
    ensures r.Some? ==> exists i :: 0 <= i < |ps| && ps[i] == (key, r.value)
                                  && forall j :: 0 <= j < i ==> ps[j].0 != key
    decreases |ps|
  {
    if ps == [] then None
    else if ps[0].0 == key then Some(ps[0].1)
    else
      var r := SearchParam(ps[1..], key);
      assert forall i :: 1 <= i < |ps| ==> ps[i] == ps[1..][i - 1];
      assert r.Some? ==> exists i :: 1 <= i < |ps| && ps[i] == (key, r.value)
                                      && forall j :: 0 <= j < i ==> ps[j].0 != key;
      r
  }

  /** `x || null` for a string that may be undefined. */
  function NonEmpty(x: Option<string>): (r: Option<string>)
    ensures r.Some? <==> x.Some? && x.value != ""
    ensures r.Some? ==> r == x
  {
    if x.Some? && x.value != "" then x else None
  }

  const ShortHost := "youtu.be"
  const EmbedMarker := "/embed/"

  /** The non-empty `v` query parameter, if any. */
  function VideoParam(u: Url): Option<string> {
    NonEmpty(SearchParam(u.searchParams, "v"))
  }

  /**
   * `getYouTubeId` over the parsed URL (None when parsing threw). The `v`
   * parameter wins; then a short-link host gives the first path segment; then
   * an embed path gives the text after the first "/embed/".
   */
  function YouTubeId(url: Option<Url>): (r: Option<string>)
    ensures url.None? ==> r.None?
    ensures r.Some? ==> r.value != ""
    // a non-empty v parameter takes precedence over every other rule
    ensures url.Some? && VideoParam(url.value).Some? ==> r == VideoParam(url.value)
    // a short link yields the path piece after the first "/", up to the next one, unless it is empty
    ensures url.Some? && VideoParam(url.value).None? && Text.Contains(url.value.hostname, ShortHost) ==>
              r == NonEmpty(Text.SecondPiece(url.value.pathname, "/"))
    ensures url.Some? && VideoParam(url.value).None? && Text.Contains(url.value.hostname, ShortHost) && r.Some? ==>
              Text.Free(r.value, "/")
    // an embed link yields the text after the first "/embed/", up to any next one, unless it is empty
    ensures url.Some? && VideoParam(url.value).None? && !Text.Contains(url.value.hostname, ShortHost)
            && Text.Contains(url.value.pathname, EmbedMarker) ==>
              r == NonEmpty(Text.SecondPiece(url.value.pathname, EmbedMarker))
    ensures url.Some? && VideoParam(url.value).None? && !Text.Contains(url.value.hostname, ShortHost) && r.Some? ==>
              Text.Contains(url.value.pathname, EmbedMarker) && Text.Free(r.value, EmbedMarker)
    // anything else has no id
    ensures (url.Some? && VideoParam(url.value).None? && !Text.Contains(url.value.hostname, ShortHost)
             && !Text.Contains(url.value.pathname, EmbedMarker)) ==> r.None?
  {
    match url
    case None => None
    case Some(u) =>
      if VideoParam(u).Some? then VideoParam(u)
      else if Text.Contains(u.hostname, ShortHost) then NonEmpty(Text.SecondPiece(u.pathname, "/"))
      else if Text.Contains(u.pathname, EmbedMarker) then NonEmpty(Text.SecondPiece(u.pathname, EmbedMarker))
      else None
  }

  /**
   * On a short-link host, with no `v` parameter, a path "/ID" or "/ID/more"
   * gives ID, whatever follows the first segment.
   */
  lemma ShortLinkId(host: string, id: string, tail: string, params: seq<(string, string)>)
    requires Text.Contains(host, ShortHost) && VideoParam(Url(host, "/" + id + tail, params)).None?
    requires id != "" && Text.Free(id, "/")
    requires tail == [] || tail[0] == '/'
    ensures YouTubeId(Some(Url(host, "/" + id + tail, params))) == Some(id)
  {
    var path := "/" + id + tail;
    assert Text.OccursAt(path, "/", 0);
    assert Text.IndexOf(path, "/") == Some(0);
    forall k | 1 <= k < 1 + |id| ensures !Text.OccursAt(path, "/", k) {
      assert !Text.OccursAt(id, "/", k - 1);
      assert path[k..k + 1] == id[k - 1..k];
    }
    if tail != [] {
      assert path[1 + |id|..2 + |id|] == "/";
    }
    assert id <= path[1..];
    assert Text.PieceAt(path, "/", 1, id);
    Text.PieceUnique(path, "/", 1, Text.SecondPiece(path, "/").value, id);
  }

  /**
   * On any other host, with no `v` parameter, a path whose first "/embed/"
   * follows `prefix` and which ends in ID gives ID.
   */
  lemma EmbedLinkId(host: string, prefix: string, id: string, params: seq<(string, string)>)
    requires !Text.Contains(host, ShortHost) && VideoParam(Url(host, prefix + EmbedMarker + id, params)).None?
    requires forall k :: 0 <= k < |prefix| ==> !Text.OccursAt(prefix + EmbedMarker + id, EmbedMarker, k)
    requires id != "" && Text.Free(id, EmbedMarker)
    ensures YouTubeId(Some(Url(host, prefix + EmbedMarker + id, params))) == Some(id)
  {
    var path := prefix + EmbedMarker + id;
    var d := |prefix| + |EmbedMarker|;
    assert path[|prefix|..d] == EmbedMarker;
    assert Text.OccursAt(path, EmbedMarker, |prefix|);
    assert Text.IndexOf(path, EmbedMarker) == Some(|prefix|);
    assert path[d..] == id;
    forall k | d <= k < d + |id| ensures !Text.OccursAt(path, EmbedMarker, k) {
      Text.OccursAtShift(path, EmbedMarker, d, k - d);
    }
    assert Text.PieceAt(path, EmbedMarker, d, id);
    Text.PieceUnique(path, EmbedMarker, d, Text.SecondPiece(path, EmbedMarker).value, id);
  }

  // ---------------------------------------------------------------------------
  // getFirstLecture
  // ---------------------------------------------------------------------------

  /** A lecture handed to the player, tagged with 1-based chapter and lecture numbers. */
  datatype PlayerLecture = PlayerLecture(lecture: Lecture, chapter: nat, lectureNumber: nat)

  /** A chapter the search skips: no lecture array, or an empty one. */
  predicate EmptyChapter(ch: Chapter) {
    ch.chapterContent.None? || |ch.chapterContent.value| == 0
  }

  /** `getFirstLecture`: the first lecture of the first chapter that has one. */
  method FirstLecture(course: Option<Course>) returns (r: Option<PlayerLecture>)
    ensures course.None? ==> r.None?
    ensures course.Some? && r.None? ==>
              forall i :: 0 <= i < |course.value.courseContent| ==> EmptyChapter(course.value.courseContent[i])
    ensures r.Some? ==>
              && course.Some?
              && 1 <= r.value.chapter <= |course.value.courseContent|
              && r.value.lectureNumber == 1
              && !EmptyChapter(course.value.courseContent[r.value.chapter - 1])
              && r.value.lecture == course.value.courseContent[r.value.chapter - 1].chapterContent.value[0]
              && forall j :: 0 <= j < r.value.chapter - 1 ==> EmptyChapter(course.value.courseContent[j])
  {
    if course.None? {
      return None;
    }
    var chapters := course.value.courseContent;
    var i := 0;
    while i < |chapters|
      invariant 0 <= i <= |chapters|
      invariant forall j :: 0 <= j < i ==> EmptyChapter(chapters[j])
    {
      var ch := chapters[i];
      if ch.chapterContent.Some? && |ch.chapterContent.value| > 0 {
        return Some(PlayerLecture(ch.chapterContent.value[0], i + 1, 1));
      }
      i := i + 1;
    }
    return None;
  }

  // ---------------------------------------------------------------------------
  // toggleSection
  // ---------------------------------------------------------------------------

  /** A section is open when its entry is true; a missing entry is closed. */
  predicate IsOpen(open: map<int, bool>, index: int) {
    index in open && open[index]
  }

  /** `toggleSection`: flips the given section and no other. */
  function ToggleSection(open: map<int, bool>, index: int): (r: map<int, bool>)
    ensures IsOpen(r, index) == !IsOpen(open, index)
    ensures forall j :: j != index ==> (j in r <==> j in open) && (j in open ==> r[j] == open[j])
  {
    open[index := !IsOpen(open, index)]
  }

  /** Toggling a section twice restores whether every section is open. */
  lemma ToggleTwice(open: map<int, bool>, index: int, j: int)
    ensures IsOpen(ToggleSection(ToggleSection(open, index), index), j) == IsOpen(open, j)
  {
  }

  // ---------------------------------------------------------------------------
  // getCourseData
  // ---------------------------------------------------------------------------

  /** The page state `getCourseData` sets: the course shown and the rating the stars start at. */
  datatype PlayerState = PlayerState(courseData: Option<Course>, initialRating: int)

  /** Index of the last course with the given id. */
  function LastMatch(cs: seq<Course>, id: CourseId): (r: Option<nat>)
    ensures r.None? <==> forall i :: 0 <= i < |cs| ==> cs[i].id != id
    ensures r.Some? ==> r.value < |cs| && cs[r.value].id == id
    ensures r.Some? ==> forall j :: r.value < j < |cs| ==> cs[j].id != id
    decreases |cs|
  {
    if cs == [] then None
    else if cs[|cs| - 1].id == id then Some(|cs| - 1)
    else LastMatch(cs[..|cs| - 1], id)
  }

  /** The ratings of every course with the given id, in list order. */
  function MatchedRatings(cs: seq<Course>, id: CourseId): seq<RatingEntry>
    decreases |cs|
  {
    if cs == [] then []
    else MatchedRatings(cs[..|cs| - 1], id) + (if cs[|cs| - 1].id == id then cs[|cs| - 1].courseRatings else [])
  }

  /** The rating of the last entry by `me`, or `prev` when there is none. */
  function LastRatingBy(rs: seq<RatingEntry>, me: Option<UserId>, prev: int): (r: int)
    ensures (forall i :: 0 <= i < |rs| ==> me != Some(rs[i].userId)) ==> r == prev
    ensures (exists i :: 0 <= i < |rs| && me == Some(rs[i].userId)) ==>
              exists i :: 0 <= i < |rs| && me == Some(rs[i].userId) && r == rs[i].rating
                          && forall j :: i < j < |rs| ==> me != Some(rs[j].userId)
    decreases |rs|
  {
    if rs == [] then prev
    else if me == Some(rs[|rs| - 1].userId) then rs[|rs| - 1].rating
    else LastRatingBy(rs[..|rs| - 1], me, prev)
  }

  /** Scanning two lists one after the other is scanning the second from where the first left off. */
  lemma {:induction false} LastRatingByAppend(a: seq<RatingEntry>, b: seq<RatingEntry>, me: Option<UserId>, prev: int)
    ensures LastRatingBy(a + b, me, prev) == LastRatingBy(b, me, LastRatingBy(a, me, prev))
    decreases |b|
  {
    if b == [] {
      assert a + b == a;
    } else {
      assert (a + b)[..|a + b| - 1] == a + b[..|b| - 1];
      LastRatingByAppend(a, b[..|b| - 1], me, prev);
    }
  }

  /** The inner `forEach` of `getCourseData`: the rating of the user's last entry, starting from `start`. */
  method ScanRatings(rs: seq<RatingEntry>, me: Option<UserId>, start: int) returns (rating: int)
    ensures rating == LastRatingBy(rs, me, start)
  {
    rating := start;
    var j := 0;
    while j < |rs|
      invariant 0 <= j <= |rs|
      invariant rating == LastRatingBy(rs[..j], me, start)
    {
      assert rs[..j + 1][..j] == rs[..j];
      if me == Some(rs[j].userId) {
        rating := rs[j].rating;
      }
      j := j + 1;
    }
    assert rs[..j] == rs;
  }

  /**
   * `getCourseData`: walks the enrolled courses; each course whose id is the
   * route's becomes the shown course, and each of its ratings by the signed-in
   * user (`me`, None when there is no user record) becomes the initial rating.
   */
  method GetCourseData(enrolled: seq<Course>, routeId: CourseId, me: Option<UserId>, st: PlayerState)
    returns (r: PlayerState)
    ensures LastMatch(enrolled, routeId).None? ==> r == st
    ensures LastMatch(enrolled, routeId).Some? ==>
              r.courseData == Some(enrolled[LastMatch(enrolled, routeId).value])
    ensures r.initialRating == LastRatingBy(MatchedRatings(enrolled, routeId), me, st.initialRating)
  {
    var course := st.courseData;
    var rating := st.initialRating;
    var i := 0;
    while i < |enrolled|
      invariant 0 <= i <= |enrolled|
      invariant LastMatch(enrolled[..i], routeId).None? ==> course == st.courseData
      invariant LastMatch(enrolled[..i], routeId).Some? ==> course == Some(enrolled[LastMatch(enrolled[..i], routeId).value])
      invariant rating == LastRatingBy(MatchedRatings(enrolled[..i], routeId), me, st.initialRating)
    {
      var c := enrolled[i];
      var before := MatchedRatings(enrolled[..i], routeId);
      assert enrolled[..i + 1][..i] == enrolled[..i];
      if c.id == routeId {
        course := Some(c);
        rating := ScanRatings(c.courseRatings, me, rating);
        LastRatingByAppend(before, c.courseRatings, me, st.initialRating);
      } else {
        assert MatchedRatings(enrolled[..i + 1], routeId) == before + [];
        assert before + [] == before;
      }
      i := i + 1;
    }
    assert enrolled[..i] == enrolled;
    if LastMatch(enrolled, routeId).None? {
      NoMatchNoRatings(enrolled, routeId);
    }
    r := PlayerState(course, rating);
  }

  /**
   * When the route's course occurs once in the enrolled list, the initial
   * rating is the user's last rating of that course, or the previous value
   * when the user has not rated it.
   */
  lemma {:induction false} SingleMatchRating(cs: seq<Course>, id: CourseId, k: nat)
    requires k < |cs| && cs[k].id == id
    requires forall i :: 0 <= i < |cs| && i != k ==> cs[i].id != id
    ensures MatchedRatings(cs, id) == cs[k].courseRatings
    decreases |cs|
  {
    if k == |cs| - 1 {
      NoMatchNoRatings(cs[..|cs| - 1], id);
    } else {
      SingleMatchRating(cs[..|cs| - 1], id, k);
    }
  }

  lemma {:induction false} NoMatchNoRatings(cs: seq<Course>, id: CourseId)
    requires forall i :: 0 <= i < |cs| ==> cs[i].id != id
    ensures MatchedRatings(cs, id) == []
    decreases |cs|
  {
    if cs != [] {
      NoMatchNoRatings(cs[..|cs| - 1], id);
    }
  }
}

=== FILE: text.dfy ===
/** The few JavaScript string operations the handlers rely on, over `seq<char>`. */
module Text {
  import opened Wrappers

  /** `a || b` on strings: the empty string is the only falsy string. */
  function Or(a: string, b: string): (r: string)
    ensures a != "" ==> r == a
    ensures a == "" ==> r == b
    ensures r == "" <==> a == "" && b == ""
  {
    if a != "" then a else b
  }

  /**
   * The characters `String.prototype.trim` removes: the white space of the
   * ECMAScript grammar (tab, vertical tab, form feed, space, no-break space,
   * byte-order mark and every Unicode space separator) and the line
   * terminators (line feed, carriage return, line and paragraph separator).
   */
  predicate IsSpace(c: char) {
    || c == '\t' || c == '\U{000B}' || c == '\U{000C}' || c == ' ' || c == '\U{00A0}' || c == '\U{FEFF}'
    || c == '\U{1680}' || ('\U{2000}' <= c <= '\U{200A}') || c == '\U{202F}' || c == '\U{205F}' || c == '\U{3000}'
    || c == '\n' || c == '\r' || c == '\U{2028}' || c == '\U{2029}'
  }

  predicate AllSpace(s: string) {
    forall i :: 0 <= i < |s| ==> IsSpace(s[i])
  }

  /** Drops leading whitespace: the result is a suffix of `s`, what was dropped is all whitespace, and the result does not start with whitespace. */
  function TrimStart(s: string): (r: string)
    ensures |r| <= |s| && r == s[|s| - |r|..]
    ensures AllSpace(s[..|s| - |r|])
    ensures r == [] || !IsSpace(r[0])
    ensures r == [] <==> AllSpace(s)
    decreases |s|
  {
    if |s| > 0 && IsSpace(s[0]) then
      var r := TrimStart(s[1..]);
      assert s[..|s| - |r|] == [s[0]] + s[1..][..|s| - 1 - |r|];
      r
    else s
  }

  /** Drops trailing whitespace: the result is a prefix of `s`, what was dropped is all whitespace, and the result does not end with whitespace. */
  function TrimEnd(s: string): (r: string)
    ensures |r| <= |s| && r == s[..|r|]
    ensures AllSpace(s[|r|..])
    ensures r == [] || !IsSpace(r[|r| - 1])
    ensures r == [] <==> AllSpace(s)
    decreases |s|
  {
    if |s| > 0 && IsSpace(s[|s| - 1]) then
      var r := TrimEnd(s[..|s| - 1]);
      assert r == s[..|r|];
      assert s[|r|..] == s[..|s| - 1][|r|..] + [s[|s| - 1]];
      r
    else s
  }

  /** `s.trim()`. */
  function Trim(s: string): (r: string)
    ensures r == [] || (!IsSpace(r[0]) && !IsSpace(r[|r| - 1]))
    ensures r == [] <==> AllSpace(s)
  {
    TrimEnd(TrimStart(s))
  }

  /** Trimming keeps a contiguous slice of the input and drops only whitespace around it. */
  lemma TrimIsSlice(s: string)
    ensures exists i, j :: 0 <= i <= j <= |s| && Trim(s) == s[i..j] && AllSpace(s[..i]) && AllSpace(s[j..])
  {
    var t := TrimStart(s);
    var i := |s| - |t|;
    var r := TrimEnd(t);
    var j := i + |r|;
    assert t == s[i..];
    assert r == s[i..j];
    assert t[|r|..] == s[j..];
  }

  /** `pat` occurs in `s` at position `i`. */
  predicate OccursAt(s: string, pat: string, i: int) {
    0 <= i && i + |pat| <= |s| && s[i..i + |pat|] == pat
  }

  /** The first occurrence of `pat` in `s` at or after `from`. */
  function IndexOfFrom(s: string, pat: string, from: nat): (r: Option<nat>)
    ensures r.Some? ==> from <= r.value && OccursAt(s, pat, r.value)
    ensures r.Some? ==> forall k :: from <= k < r.value ==> !OccursAt(s, pat, k)
    ensures r.None? ==> forall k :: from <= k ==> !OccursAt(s, pat, k)
    decreases |s| - from
  {
    if from + |pat| > |s| then None
    else if s[from..from + |pat|] == pat then Some(from)
    else IndexOfFrom(s, pat, from + 1)
  }

  /** `s.indexOf(pat)`, with -1 written as None. */
  function IndexOf(s: string, pat: string): (r: Option<nat>)
    ensures r.Some? ==> OccursAt(s, pat, r.value) && forall k :: 0 <= k < r.value ==> !OccursAt(s, pat, k)
    ensures r.None? <==> forall k :: 0 <= k ==> !OccursAt(s, pat, k)
  {
    IndexOfFrom(s, pat, 0)
  }

  /** `s.includes(pat)`. */
  predicate Contains(s: string, pat: string) {
    IndexOf(s, pat).Some?
  }

  /** `pat` does not occur anywhere in `s`. */
  predicate Free(s: string, pat: string) {
    forall k :: 0 <= k <= |s| ==> !OccursAt(s, pat, k)
  }

  /**
   * `x` is the piece of `s` that starts at position `i` and runs up to the
   * next occurrence of `sep` (which starts right after it) or to the end.
   */
  predicate PieceAt(s: string, sep: string, i: nat, x: string) {
    && i <= |s| && x <= s[i..]
    && (i + |x| == |s| || OccursAt(s, sep, i + |x|))
    && forall k :: i <= k < i + |x| ==> !OccursAt(s, sep, k)
  }

  /** At a given start there is only one such piece. */
  lemma PieceUnique(s: string, sep: string, i: nat, x: string, y: string)
    requires PieceAt(s, sep, i, x) && PieceAt(s, sep, i, y)
    ensures x == y
  {
    assert |x| == |y|;
  }

  /** An occurrence in a suffix is an occurrence in the whole string, shifted. */
  lemma OccursAtShift(s: string, pat: string, d: nat, k: int)
    requires d <= |s| && 0 <= k
    ensures OccursAt(s[d..], pat, k) <==> OccursAt(s, pat, d + k)
  {
    if d + k + |pat| <= |s| {
      assert s[d..][k..k + |pat|] == s[d + k..d + k + |pat|];
    }
  }

  /** The piece of `s` from position `d` up to the next occurrence of `sep`, or to the end. */
  function PieceFrom(s: string, sep: string, d: nat): (r: string)
    requires sep != "" && d <= |s|
    ensures PieceAt(s, sep, d, r)
    ensures Free(r, sep)
  {
    var rest := s[d..];
    match IndexOf(rest, sep)
    case None =>
      forall k | d <= k < d + |rest| ensures !OccursAt(s, sep, k) {
        OccursAtShift(s, sep, d, k - d);
      }
      rest
    case Some(j) =>
      PrefixBeforeFirstIsFree(rest, sep, j);
      OccursAtShift(s, sep, d, j);
      forall k | d <= k < d + j ensures !OccursAt(s, sep, k) {
        OccursAtShift(s, sep, d, k - d);
      }
      rest[..j]
  }

  /**
   * `s.split(sep)[1]` for a non-empty separator: the text between the first
   * and the second occurrence of `sep`, or up to the end when there is no
   * second one; None (undefined) when `sep` does not occur at all.
   */
  function SecondPiece(s: string, sep: string): (r: Option<string>)
    requires sep != ""
    ensures r.None? <==> Free(s, sep)
    ensures r.Some? ==> Free(r.value, sep)
    ensures r.Some? ==> IndexOf(s, sep).Some? && PieceAt(s, sep, IndexOf(s, sep).value + |sep|, r.value)
  {
    match IndexOf(s, sep)
    case None => None
    case Some(i) =>
      assert OccursAt(s, sep, i);
      Some(PieceFrom(s, sep, i + |sep|))
  }

  /** A prefix that ends before the first occurrence of `pat` contains no occurrence of it. */
  lemma PrefixBeforeFirstIsFree(s: string, pat: string, j: nat)
    requires pat != "" && j <= |s|
    requires forall k :: 0 <= k < j ==> !OccursAt(s, pat, k)
    ensures Free(s[..j], pat)
  {
    forall k | 0 <= k <= j
      ensures !OccursAt(s[..j], pat, k)
    {
      if OccursAt(s[..j], pat, k) {
        assert s[..j][k..k + |pat|] == s[k..k + |pat|];
        assert OccursAt(s, pat, k);
      }
    }
  }
}

=== FILE: user_controller.dfy ===
/** The student-facing handlers: profile, enrolments, checkout, progress and ratings. */
module UserController {
  import opened Wrappers
  import opened Model

  // ---------------------------------------------------------------------------
  // getUserData
  // ---------------------------------------------------------------------------

  /** The identity provider's session claims the profile fallback reads; a missing claim is "". */
  datatype SessionClaims = SessionClaims(
    fullName: string,
    name: string,
    email: string,
    emailAddress: string,
    imageUrl: string,
    picture: string)

  function FirstPresent(a: string, b: string, default: string): (r: string)
    ensures r == a || r == b || r == default
    ensures a != "" ==> r == a
    ensures a == "" && b != "" ==> r == b
  {
    if a != "" then a else if b != "" then b else default
  }

  /** The user record created for a signed-in caller the store does not know yet. */
  function UserFromClaims(caller: UserId, claims: SessionClaims): (u: User)
    ensures u.id == caller && u.enrolledCourses == []
    ensures u.name != ""
    // name: fullName, else name, else "User"
    ensures claims.fullName != "" ==> u.name == claims.fullName
    ensures claims.fullName == "" && claims.name != "" ==> u.name == claims.name
    ensures claims.fullName == "" && claims.name == "" ==> u.name == "User"
    // email and image: the first claim, else the second (which is "" when it is missing too)
    ensures claims.email != "" ==> u.email == claims.email
    ensures claims.email == "" ==> u.email == claims.emailAddress
    ensures claims.imageUrl != "" ==> u.imageUrl == claims.imageUrl
    ensures claims.imageUrl == "" ==> u.imageUrl == claims.picture
  {
    User(caller,
         FirstPresent(claims.fullName, claims.name, "User"),
         FirstPresent(claims.email, claims.emailAddress, ""),
         FirstPresent(claims.imageUrl, claims.picture, ""),
         [])
  }

  /** `getUserData`: returns the caller's record, creating it on first sight. */
  function GetUserData(s: Store, caller: UserId, claims: SessionClaims): (r: Step<User>)
    ensures !Present(caller) ==> r == Step(s, Err(401, Unauthorized))
    // a known user is returned as stored and nothing is written
    ensures Present(caller) && caller in s.users ==> r == Step(s, Ok(s.users[caller]))
    // an unknown user is created under the caller's id, with no enrolments, and returned
    ensures Present(caller) && caller !in s.users ==>
              && r.response.Ok?
              && r.response.value.id == caller
              && r.response.value.enrolledCourses == []
              && r.response.value.name != ""
              && r.response.value == UserFromClaims(caller, claims)
              && r.store.users == s.users[caller := r.response.value]
    ensures AgreeExcept(s.users, r.store.users, caller)
    ensures r.store.courses == s.courses && r.store.purchases == s.purchases && r.store.progress == s.progress
  {
    if !Present(caller) then Step(s, Err(401, Unauthorized))
    else if caller in s.users then Step(s, Ok(s.users[caller]))
    else
      var u := UserFromClaims(caller, claims);
      Step(s.(users := s.users[caller := u]), Ok(u))
  }

  /** Asking twice returns the same record and the store the first call left. */
  lemma GetUserDataIdempotent(s: Store, caller: UserId, claims: SessionClaims)
    ensures var first := GetUserData(s, caller, claims);
            GetUserData(first.store, caller, claims) == first
  {
  }

  // ---------------------------------------------------------------------------
  // userEnrolledCourses
  // ---------------------------------------------------------------------------

  /**
   * Replaces course ids by the course documents, in list order, dropping ids
   * whose course no longer exists (what populating a reference array yields).
   */
  function Populate(ids: seq<CourseId>, courses: map<CourseId, Course>): (r: seq<Course>)
    ensures |r| <= |ids|
    ensures forall c :: c in r ==> exists id :: id in ids && id in courses && courses[id] == c
    ensures forall id :: id in ids && id in courses ==> courses[id] in r
    // one id: its course if it exists, else nothing
    ensures |ids| == 1 ==> r == (if ids[0] in courses then [courses[ids[0]]] else [])
    decreases |ids|
  {
    if ids == [] then []
    else
      var rest := Populate(ids[1..], courses);
      var r := if ids[0] in courses then [courses[ids[0]]] + rest else rest;
      assert forall id :: id in ids[1..] ==> id in ids;
      assert forall id :: id in ids ==> id == ids[0] || id in ids[1..];
      r
  }

  /** Populating keeps the order of the id list: the result for a concatenation is the concatenation of the results. */
  lemma {:induction false} PopulateAppend(a: seq<CourseId>, b: seq<CourseId>, courses: map<CourseId, Course>)
    ensures Populate(a + b, courses) == Populate(a, courses) + Populate(b, courses)
    decreases |a|
  {
    if a == [] {
      assert a + b == b;
    } else {
      assert (a + b)[0] == a[0];
      assert (a + b)[1..] == a[1..] + b;
      PopulateAppend(a[1..], b, courses);
    }
  }

  /** `userEnrolledCourses`: the caller's enrolled courses, or none when the caller has no record. */
  function UserEnrolledCourses(s: Store, caller: UserId): (r: Response<seq<Course>>)
    ensures !Present(caller) ==> r == Err(401, Unauthorized)
    ensures Present(caller) ==> r.Ok?
    ensures Present(caller) && caller !in s.users ==> r == Ok([])
    // the courses come in the order of the user's list, missing ones dropped (see PopulateAppend)
    ensures Present(caller) && caller in s.users ==> r.value == Populate(s.users[caller].enrolledCourses, s.courses)
    ensures Present(caller) && caller in s.users ==>
              && (forall id :: id in s.users[caller].enrolledCourses && id in s.courses ==> s.courses[id] in r.value)
              && (forall c :: c in r.value ==>
                    exists id :: id in s.users[caller].enrolledCourses && id in s.courses && s.courses[id] == c)
  {
    if !Present(caller) then Err(401, Unauthorized)
    else if caller !in s.users then Ok([])
    else Ok(Populate(s.users[caller].enrolledCourses, s.courses))
  }

  // ---------------------------------------------------------------------------
  // purchaseCourse
  // ---------------------------------------------------------------------------

  const DataNotFound := "Data Not Found"

  /** The amount charged: the price less `discount` percent of it, before any rounding. */
  function NetPrice(price: real, discount: real): (r: real)
    ensures r == price * (100.0 - discount) / 100.0
    ensures 0.0 <= price && 0.0 <= discount <= 100.0 ==> 0.0 <= r <= price
  {
    price - discount * price / 100.0
  }

  /** A course priced 100 with a 20 percent discount is charged 80. */
  lemma NetPriceExample()
    ensures NetPrice(100.0, 20.0) == 80.0
  {
  }

  /**
   * `purchaseCourse`: records a pending purchase for an existing buyer and
   * course, then asks the payment processor for a checkout session whose
   * metadata carries the new purchase id. `newId` is the id the store assigns;
   * `now` the creation time; `checkout` what the session request produced
   * (its URL, or the processor's error).
   */
  function PurchaseCourse(s: Store, caller: UserId, courseId: CourseId, newId: PurchaseId, now: int,
                          checkout: Oracle<string>): (r: Step<string>)
    requires newId !in s.purchases
    // no caller, no buyer record or no course: nothing is created
    ensures !Present(caller) ==> r == Step(s, Err(401, Unauthorized))
    ensures Present(caller) && (caller !in s.users || courseId !in s.courses) ==> r == Step(s, Err(200, DataNotFound))
    // otherwise exactly one purchase appears, for the caller and the course, at the net price
    ensures Present(caller) && caller in s.users && courseId in s.courses ==>
              && r.store.purchases.Keys == s.purchases.Keys + {newId}
              && r.store.purchases[newId].userId == caller
              && r.store.purchases[newId].courseId == courseId
              && r.store.purchases[newId].status == DefaultPurchaseStatus
              && r.store.purchases[newId].amount
                 == NetPrice(s.courses[courseId].coursePrice, s.courses[courseId].discount)
    // the record stays even when the checkout session could not be created
    ensures Present(caller) && caller in s.users && courseId in s.courses ==>
              (r.response.Ok? <==> checkout.Returned?)
    ensures AgreeExcept(s.purchases, r.store.purchases, newId)
    ensures r.store.users == s.users && r.store.courses == s.courses && r.store.progress == s.progress
  {
    if !Present(caller) then Step(s, Err(401, Unauthorized))
    else if caller !in s.users || courseId !in s.courses then Step(s, Err(200, DataNotFound))
    else
      var c := s.courses[courseId];
      var p := Purchase(courseId, caller, NetPrice(c.coursePrice, c.discount), DefaultPurchaseStatus, now);
      var s' := s.(purchases := s.purchases[newId := p]);
      match checkout
      case Returned(url) => Step(s', Ok(url))
      case Threw(message) => Step(s', Err(200, message))
  }

  // ---------------------------------------------------------------------------
  // updateUserCourseProgress
  // ---------------------------------------------------------------------------

  /**
   * `completed` of a newly created progress record, taken from the
   * CourseProgress schema's default. The schema is not part of this model;
   * `false` is assumed.
   */
  const DefaultProgressCompleted := false

  const AlreadyCompleted := "Lecture Already Completed"
  const ProgressUpdated := "Progress Updated"

  /** `updateUserCourseProgress`: records that the caller finished a lecture. */
  function UpdateUserCourseProgress(s: Store, caller: UserId, courseId: CourseId, lectureId: LectureId): (r: Step<string>)
    ensures !Present(caller) ==> r == Step(s, Err(401, Unauthorized))
    // a lecture already recorded changes nothing
    ensures var k := ProgressKey(caller, courseId);
            Present(caller) && k in s.progress && lectureId in s.progress[k].lectureCompleted ==>
              r == Step(s, Ok(AlreadyCompleted))
    // otherwise the lecture is appended once to the record, which is created when missing
    ensures var k := ProgressKey(caller, courseId);
            Present(caller) && !(k in s.progress && lectureId in s.progress[k].lectureCompleted) ==>
              && r.response == Ok(ProgressUpdated)
              && k in r.store.progress
              && (k in s.progress ==>
                    r.store.progress[k].lectureCompleted == s.progress[k].lectureCompleted + [lectureId]
                    && r.store.progress[k].completed
                    && r.store.progress[k]
                       == s.progress[k].(lectureCompleted := s.progress[k].lectureCompleted + [lectureId], completed := true))
              && (k !in s.progress ==>
                    r.store.progress[k] == Progress(caller, courseId, DefaultProgressCompleted, [lectureId]))
    ensures AgreeExcept(s.progress, r.store.progress, ProgressKey(caller, courseId))
    ensures r.store.users == s.users && r.store.courses == s.courses && r.store.purchases == s.purchases
  {
    if !Present(caller) then Step(s, Err(401, Unauthorized))
    else
      var k := ProgressKey(caller, courseId);
      if k in s.progress then
        var p := s.progress[k];
        if lectureId in p.lectureCompleted then Step(s, Ok(AlreadyCompleted))
        else
          var p' := p.(lectureCompleted := p.lectureCompleted + [lectureId], completed := true);
          Step(s.(progress := s.progress[k := p']), Ok(ProgressUpdated))
      else
        var p := Progress(caller, courseId, DefaultProgressCompleted, [lectureId]);
        Step(s.(progress := s.progress[k := p]), Ok(ProgressUpdated))
  }

  /** Marking the same lecture twice leaves the store of marking it once. */
  lemma ProgressIdempotent(s: Store, caller: UserId, courseId: CourseId, lectureId: LectureId)
    ensures var once := UpdateUserCourseProgress(s, caller, courseId, lectureId).store;
            UpdateUserCourseProgress(once, caller, courseId, lectureId).store == once
  {
  }

  /** After a successful mark the lecture is recorded, and the completed list still has no duplicates. */
  lemma ProgressPreservesWf(s: Store, caller: UserId, courseId: CourseId, lectureId: LectureId)
    requires Wf(s)
    ensures var r := UpdateUserCourseProgress(s, caller, courseId, lectureId).store;
            && Wf(r)
            && (Present(caller) ==> lectureId in r.progress[ProgressKey(caller, courseId)].lectureCompleted)
  {
    var k := ProgressKey(caller, courseId);
    if Present(caller) && k in s.progress && lectureId !in s.progress[k].lectureCompleted {
      var l := s.progress[k].lectureCompleted;
      assert AddOnce(l, lectureId) == l + [lectureId];
    }
  }

  // ---------------------------------------------------------------------------
  // addUserRating
  // ---------------------------------------------------------------------------

  const InvalidDetails := "Invalid details"
  const CourseNotFound := "Course Not found!"
  const NotPurchased := "User has not purchased this course."
  const RatingAdded := "Rating Added"

  /** Index of the first rating entry by `user` (`findIndex`), None for -1. */
  function FindRating(rs: seq<RatingEntry>, user: UserId): (r: Option<nat>)
    ensures r.Some? ==> (r.value < |rs| && rs[r.value].userId == user
                        && forall i :: 0 <= i < r.value ==> rs[i].userId != user)
    ensures r.None? ==> forall i :: 0 <= i < |rs| ==> rs[i].userId != user
    decreases |rs|
  {
    if rs == [] then None
    else if rs[0].userId == user then Some(0)
    else match FindRating(rs[1..], user)
      case None => None
      case Some(i) => Some(i + 1)
  }

  /** Replaces the user's first entry in place, or appends one. */
  function UpsertRating(rs: seq<RatingEntry>, user: UserId, rating: int): (r: seq<RatingEntry>)
    // an existing entry is replaced in place, so the length is unchanged; otherwise one is appended
    ensures FindRating(rs, user).Some? ==> |r| == |rs|
    ensures FindRating(rs, user).None? ==> |r| == |rs| + 1 && r[..|rs|] == rs && r[|rs|] == RatingEntry(user, rating)
    // other users' entries are untouched
    ensures forall i :: 0 <= i < |rs| && rs[i].userId != user ==> r[i] == rs[i]
    // the user now has an entry with the new rating, and no entry by anyone else was added
    ensures RatingEntry(user, rating) in r
    ensures forall i :: 0 <= i < |r| && r[i].userId != user ==> i < |rs| && r[i] == rs[i]
    ensures OneRatingPerUser(rs) ==> OneRatingPerUser(r)
  {
    match FindRating(rs, user)
    case Some(i) =>
      var r := rs[i := RatingEntry(user, rating)];
      assert r[i] == RatingEntry(user, rating);
      r
    case None => rs + [RatingEntry(user, rating)]
  }

  /** `addUserRating`: an enrolled student rates a course from 1 to 5. */
  function AddUserRating(s: Store, caller: UserId, courseId: CourseId, rating: int): (r: Step<string>)
    // a missing id, a missing course, a rating outside 1..5 or a caller not enrolled is refused and writes nothing
    ensures r.response.Err? ==> r.store == s
    ensures !Present(courseId) || !Present(caller) || rating < 1 || rating > 5 ==> r.response == Err(200, InvalidDetails)
    ensures Present(courseId) && Present(caller) && 1 <= rating <= 5 && courseId !in s.courses ==>
              r.response == Err(200, CourseNotFound)
    ensures r.response.Ok? <==>
              && Present(courseId) && Present(caller) && 1 <= rating <= 5
              && courseId in s.courses && caller in s.users && courseId in s.users[caller].enrolledCourses
    // on success only that course's ratings change, to the upsert of the caller's rating
    ensures r.response.Ok? ==>
              && r.store.courses.Keys == s.courses.Keys
              && r.store.courses[courseId] == s.courses[courseId].(courseRatings := r.store.courses[courseId].courseRatings)
              && RatingEntry(caller, rating) in r.store.courses[courseId].courseRatings
              && r.store.courses[courseId].courseRatings == UpsertRating(s.courses[courseId].courseRatings, caller, rating)
    ensures AgreeExcept(s.courses, r.store.courses, courseId)
    ensures r.store.users == s.users && r.store.purchases == s.purchases && r.store.progress == s.progress
  {
    if !Present(courseId) || !Present(caller) || rating < 1 || rating > 5 then Step(s, Err(200, InvalidDetails))
    else if courseId !in s.courses then Step(s, Err(200, CourseNotFound))
    else if caller !in s.users || courseId !in s.users[caller].enrolledCourses then Step(s, Err(200, NotPurchased))
    else
      var c := s.courses[courseId];
      var c' := c.(courseRatings := UpsertRating(c.courseRatings, caller, rating));
      Step(s.(courses := s.courses[courseId := c']), Ok(RatingAdded))
  }

  /** Rating keeps the store invariant, in particular one entry per user. */
  lemma AddUserRatingPreservesWf(s: Store, caller: UserId, courseId: CourseId, rating: int)
    requires Wf(s)
    ensures Wf(AddUserRating(s, caller, courseId, rating).store)
  {
  }

  /** With one entry per user, rating again replaces the entry: the list keeps its length. */
  lemma ReRatingKeepsLength(rs: seq<RatingEntry>, user: UserId, old_rating: int, rating: int)
    requires RatingEntry(user, old_rating) in rs
    ensures |UpsertRating(rs, user, rating)| == |rs|
  {
    var i :| 0 <= i < |rs| && rs[i] == RatingEntry(user, old_rating);
    assert rs[i].userId == user;
  }
}

=== FILE: webhooks.dfy ===
/**
 * The two webhook endpoints: identity-provider user events (Clerk, signed
 * with svix) and payment events (Stripe), which reconcile purchase records
 * with enrolments.
 */
module Webhooks {
  import opened Wrappers
  import opened Model
  import Text

  // ---------------------------------------------------------------------------
  // Identity-provider webhook
  // ---------------------------------------------------------------------------

  /** The `data` object of a user event; a missing name part or image is "". */
  datatype ClerkUserData = ClerkUserData(
    id: UserId,
    emailAddresses: seq<string>,
    firstName: string,
    lastName: string,
    imageUrl: string)

  datatype ClerkEvent = ClerkEvent(kind: string, data: ClerkUserData)

  const UserCreated := "user.created"
  const UserUpdated := "user.updated"
  const UserDeleted := "user.deleted"

  const NoEmail := "no-email@user.com"
  const DefaultName := "User"
  const PlaceholderImage := "https://via.placeholder.com/150"

  /**
   * Stand-in for the store's own error message when it refuses a user
   * document without an `_id` or with a taken one; the handler forwards
   * whatever text the store gives, which this model does not know.
   */
  const UserRejected := "user document rejected by the store"

  /** Payload of the identity-provider acknowledgement: `{}` for a user event, `{success: true}` otherwise. */
  datatype ClerkAck = Handled | Ignored

  /** The first e-mail address, or the placeholder address when there is none. */
  function ProfileEmail(d: ClerkUserData): (r: string)
    ensures r != ""
    ensures |d.emailAddresses| > 0 && d.emailAddresses[0] != "" ==> r == d.emailAddresses[0]
    ensures |d.emailAddresses| == 0 || d.emailAddresses[0] == "" ==> r == NoEmail
  {
    Text.Or(if |d.emailAddresses| > 0 then d.emailAddresses[0] else "", NoEmail)
  }

  /** "first last" with surrounding whitespace removed, or "User" when that leaves nothing. */
  function ProfileName(d: ClerkUserData): (r: string)
    ensures r != ""
    ensures !Text.IsSpace(r[0]) && !Text.IsSpace(r[|r| - 1])
    ensures !Text.AllSpace(d.firstName + " " + d.lastName) ==> r == Text.Trim(d.firstName + " " + d.lastName)
    ensures Text.AllSpace(d.firstName + " " + d.lastName) ==> r == DefaultName
  {
    Text.Or(Text.Trim(d.firstName + " " + d.lastName), DefaultName)
  }

  /** A user whose first and last names are blank is called "User". */
  lemma BlankNameIsUser(d: ClerkUserData)
    requires Text.AllSpace(d.firstName) && Text.AllSpace(d.lastName)
    ensures ProfileName(d) == DefaultName
  {
    var full := d.firstName + " " + d.lastName;
    assert Text.AllSpace(full) by {
      forall i | 0 <= i < |full| ensures Text.IsSpace(full[i]) {
        if i < |d.firstName| {
          assert full[i] == d.firstName[i];
        } else if i > |d.firstName| {
          assert full[i] == d.lastName[i - |d.firstName| - 1];
        }
      }
    }
    Text.TrimIsSlice(full);
  }

  /** The image URL, or the placeholder image when there is none. */
  function ProfileImage(d: ClerkUserData): (r: string)
    ensures r != ""
    ensures d.imageUrl != "" ==> r == d.imageUrl
    ensures d.imageUrl == "" ==> r == PlaceholderImage
  {
    Text.Or(d.imageUrl, PlaceholderImage)
  }

  /** The user document `user.created` inserts. */
  function NewUser(d: ClerkUserData): User {
    User(d.id, ProfileName(d), ProfileEmail(d), ProfileImage(d), [])
  }

  /** `user.updated` overwrites the profile fields and nothing else. */
  function WithProfile(u: User, d: ClerkUserData): (r: User)
    ensures r.id == u.id && r.enrolledCourses == u.enrolledCourses
  {
    u.(name := ProfileName(d), email := ProfileEmail(d), imageUrl := ProfileImage(d))
  }

  /** The identity-provider webhook handler. */
  function ClerkWebhook(s: Store, verdict: Oracle<()>, ev: ClerkEvent): (r: Step<ClerkAck>)
    // an unverified delivery is rejected with 400 and writes nothing
    ensures verdict.Threw? ==> r == Step(s, Err(400, verdict.message))
    ensures r.response.Err? ==> r.store == s
    // no handler touches anything but the user map
    ensures r.store.courses == s.courses && r.store.purchases == s.purchases && r.store.progress == s.progress
    ensures AgreeExcept(s.users, r.store.users, ev.data.id)
    // user.created inserts a fresh user with no enrolments, or is refused
    ensures verdict.Returned? && ev.kind == UserCreated ==>
              (r.response.Ok? <==> Present(ev.data.id) && ev.data.id !in s.users)
    ensures verdict.Returned? && ev.kind == UserCreated && r.response.Ok? ==>
              ev.data.id in r.store.users && r.store.users[ev.data.id].enrolledCourses == []
              && r.store.users[ev.data.id].id == ev.data.id
              && r.store.users[ev.data.id].name == ProfileName(ev.data)
              && r.store.users[ev.data.id].email == ProfileEmail(ev.data)
              && r.store.users[ev.data.id].imageUrl == ProfileImage(ev.data)
              && r.store.users.Keys == s.users.Keys + {ev.data.id}
    // user.updated keeps the id and the enrolments of an existing user and creates no user
    ensures verdict.Returned? && ev.kind == UserUpdated ==>
              r.response.Ok? && r.store.users.Keys == s.users.Keys
    ensures verdict.Returned? && ev.kind == UserUpdated && ev.data.id in s.users ==>
              r.store.users[ev.data.id].enrolledCourses == s.users[ev.data.id].enrolledCourses
              && r.store.users[ev.data.id].id == s.users[ev.data.id].id
              && r.store.users[ev.data.id].name == ProfileName(ev.data)
              && r.store.users[ev.data.id].email == ProfileEmail(ev.data)
              && r.store.users[ev.data.id].imageUrl == ProfileImage(ev.data)
    // user.deleted removes exactly that id
    ensures verdict.Returned? && ev.kind == UserDeleted ==>
              r.response.Ok? && r.store.users.Keys == s.users.Keys - {ev.data.id}
    // every other event type is acknowledged without a write
    ensures verdict.Returned? && ev.kind !in {UserCreated, UserUpdated, UserDeleted} ==>
              r == Step(s, Ok(Ignored))
  {
    if verdict.Threw? then Step(s, Err(400, verdict.message))
    else
      var d := ev.data;
      if ev.kind == UserCreated then
        if !Present(d.id) || d.id in s.users then Step(s, Err(400, UserRejected))
        else Step(s.(users := s.users[d.id := NewUser(d)]), Ok(Handled))
      else if ev.kind == UserUpdated then
        if d.id in s.users then Step(s.(users := s.users[d.id := WithProfile(s.users[d.id], d)]), Ok(Handled))
        else Step(s, Ok(Handled))
      else if ev.kind == UserDeleted then
        Step(s.(users := s.users - {d.id}), Ok(Handled))
      else
        Step(s, Ok(Ignored))
  }

  /** Every identity-provider event keeps the store invariant. */
  lemma ClerkWebhookPreservesWf(s: Store, verdict: Oracle<()>, ev: ClerkEvent)
    requires Wf(s)
    ensures Wf(ClerkWebhook(s, verdict, ev).store)
  {
  }

  // ---------------------------------------------------------------------------
  // Payment webhook
  // ---------------------------------------------------------------------------

  /** A verified payment event: its type and the id of the payment intent it carries. */
  datatype StripeEvent = StripeEvent(kind: string, paymentIntentId: string)

  const PaymentSucceeded := "payment_intent.succeeded"
  const PaymentFailed := "payment_intent.payment_failed"

  /**
   * The checkout sessions the payment processor lists for a payment intent,
   * reduced to what the handlers read: `metadata.purchaseId` of the first
   * listed session. An intent without a key has an empty session list.
   */
  type SessionIndex = map<string, PurchaseId>

  /** Payload of the payment acknowledgement, `{received: true}`. */
  datatype Ack = Received

  /**
   * Where a handler stopped: every write went through, or the store or the
   * payment processor threw after the first `writes` of the handler's writes
   * (a count past the handler's last write means they all went through). The
   * handler catches the error, logs it and returns.
   */
  datatype Fault = NoFault | FailsAfter(writes: nat)

  /** Purchase record an event's payment intent leads to: session list, then `metadata.purchaseId`, then the record. */
  function Correlate(s: Store, sessions: SessionIndex, intent: string): (r: Option<PurchaseId>)
    ensures r.Some? ==> r.value in s.purchases
  {
    if intent in sessions && sessions[intent] in s.purchases then Some(sessions[intent]) else None
  }

  /** The purchase's buyer and course both exist, so the success handler writes. */
  predicate Enrollable(s: Store, pid: PurchaseId) {
    pid in s.purchases && s.purchases[pid].userId in s.users && s.purchases[pid].courseId in s.courses
  }

  /**
   * The three writes of a successful payment, in source order, of which only
   * the first `limit` take effect: buyer into the course's students, course
   * into the buyer's courses, purchase status to completed.
   */
  function EnrolWrites(s: Store, pid: PurchaseId, limit: nat): (r: Store)
    requires Enrollable(s, pid)
    ensures Enrollable(r, pid)
  {
    var p := s.purchases[pid];
    var c := s.courses[p.courseId];
    var u := s.users[p.userId];
    var s1 := if limit >= 1 then s.(courses := s.courses[p.courseId := c.(enrolledStudents := AddOnce(c.enrolledStudents, p.userId))]) else s;
    var s2 := if limit >= 2 then s1.(users := s1.users[p.userId := u.(enrolledCourses := AddOnce(u.enrolledCourses, p.courseId))]) else s1;
    if limit >= 3 then s2.(purchases := s2.purchases[pid := p.(status := Completed)]) else s2
  }

  /** How many of a handler's writes take effect under `fault`. */
  function WritesAllowed(fault: Fault): nat {
    match fault
    case NoFault => 3
    case FailsAfter(k) => k
  }

  /** `handlePaymentSuccess`: enrol the buyer and complete the purchase. */
  function HandlePaymentSuccess(s: Store, sessions: SessionIndex, intent: string, fault: Fault): (r: Store)
    // no session, no purchase, no buyer or no course: nothing is written
    ensures Correlate(s, sessions, intent).None? ==> r == s
    ensures Correlate(s, sessions, intent).Some? && !Enrollable(s, Correlate(s, sessions, intent).value) ==> r == s
    // only the buyer, the course and the purchase can change, and no document appears or disappears
    ensures r.progress == s.progress
    ensures r.users.Keys == s.users.Keys && r.courses.Keys == s.courses.Keys && r.purchases.Keys == s.purchases.Keys
    ensures Correlate(s, sessions, intent).Some? ==>
              var p := s.purchases[Correlate(s, sessions, intent).value];
              && AgreeExcept(s.users, r.users, p.userId)
              && AgreeExcept(s.courses, r.courses, p.courseId)
              && AgreeExcept(s.purchases, r.purchases, Correlate(s, sessions, intent).value)
    // each record either keeps its old value or gets its one write: the buyer appended to the course's
    // students unless already there, the course appended to the buyer's courses likewise, status completed;
    // the writes happen in that order, so a later one implies the earlier ones
    ensures Correlate(s, sessions, intent).Some? && Enrollable(s, Correlate(s, sessions, intent).value) ==>
              var pid := Correlate(s, sessions, intent).value;
              var p := s.purchases[pid];
              var c := s.courses[p.courseId];
              var u := s.users[p.userId];
              var c' := c.(enrolledStudents := AddOnce(c.enrolledStudents, p.userId));
              var u' := u.(enrolledCourses := AddOnce(u.enrolledCourses, p.courseId));
              && (r.courses[p.courseId] == c || r.courses[p.courseId] == c')
              && (r.users[p.userId] == u || r.users[p.userId] == u')
              && (r.purchases[pid] == p || r.purchases[pid] == p.(status := Completed))
              && (r.users[p.userId] != u ==> r.courses[p.courseId] == c')
              && (r.purchases[pid] != p ==> r.courses[p.courseId] == c' && r.users[p.userId] == u')
              // a fault before the first write leaves everything as it was; with no fault all three writes happen
              && (fault == FailsAfter(0) ==> r == s)
              && (fault.NoFault? ==>
                    r.courses[p.courseId] == c' && r.users[p.userId] == u' && r.purchases[pid] == p.(status := Completed))
    // with every write done the buyer and the course are enrolled in each other and the purchase is completed
    ensures fault.NoFault? && Correlate(s, sessions, intent).Some? && Enrollable(s, Correlate(s, sessions, intent).value) ==>
              var pid := Correlate(s, sessions, intent).value;
              var p := s.purchases[pid];
              && p.userId in r.courses[p.courseId].enrolledStudents
              && p.courseId in r.users[p.userId].enrolledCourses
              && r.purchases[pid] == p.(status := Completed)
  {
    match Correlate(s, sessions, intent)
    case None => s
    case Some(pid) =>
      if !Enrollable(s, pid) then s
      else EnrolWrites(s, pid, WritesAllowed(fault))
  }

  /** `handlePaymentFailed`: mark the purchase failed, whatever its status was. */
  function HandlePaymentFailed(s: Store, sessions: SessionIndex, intent: string, fault: Fault): (r: Store)
    ensures Correlate(s, sessions, intent).None? || fault == FailsAfter(0) ==> r == s
    ensures r.users == s.users && r.courses == s.courses && r.progress == s.progress
    ensures r.purchases.Keys == s.purchases.Keys
    ensures Correlate(s, sessions, intent).Some? ==> AgreeExcept(s.purchases, r.purchases, Correlate(s, sessions, intent).value)
    // the handler's single write, when it happens, sets the status to failed and keeps every other field
    ensures Correlate(s, sessions, intent).Some? && fault != FailsAfter(0) ==>
              var pid := Correlate(s, sessions, intent).value;
              r.purchases[pid] == s.purchases[pid].(status := Failed)
  {
    match Correlate(s, sessions, intent)
    case None => s
    case Some(pid) =>
      if WritesAllowed(fault) == 0 then s
      else s.(purchases := s.purchases[pid := s.purchases[pid].(status := Failed)])
  }

  /** The payment webhook: signature gate, then dispatch on the event type. */
  function StripeWebhook(s: Store, verdict: Oracle<StripeEvent>, sessions: SessionIndex, fault: Fault): (r: Step<Ack>)
    // a signature that does not verify is answered with 400 and nothing is written
    ensures verdict.Threw? ==> r == Step(s, Err(400, "Webhook Error: " + verdict.message))
    // every verified event is acknowledged, even when its handler failed part-way
    ensures verdict.Returned? ==> r.response == Ok(Received)
    // an event type the handler does not know writes nothing
    ensures verdict.Returned? && verdict.value.kind != PaymentSucceeded && verdict.value.kind != PaymentFailed ==> r.store == s
    // a payment that succeeded enrols the buyer; one that failed marks the purchase failed
    ensures verdict.Returned? && verdict.value.kind == PaymentSucceeded ==>
              r.store == HandlePaymentSuccess(s, sessions, verdict.value.paymentIntentId, fault)
    ensures verdict.Returned? && verdict.value.kind == PaymentFailed ==>
              r.store == HandlePaymentFailed(s, sessions, verdict.value.paymentIntentId, fault)
  {
    match verdict
    case Threw(message) => Step(s, Err(400, "Webhook Error: " + message))
    case Returned(ev) =>
      var s' :=
        if ev.kind == PaymentSucceeded then HandlePaymentSuccess(s, sessions, ev.paymentIntentId, fault)
        else if ev.kind == PaymentFailed then HandlePaymentFailed(s, sessions, ev.paymentIntentId, fault)
        else s;
      Step(s', Ok(Received))
  }

  /** A rejected signature is answered the same way whatever the store, the sessions and the fault: nothing is read. */
  lemma SignatureGateReadsNothing(s1: Store, s2: Store, message: string,
                                  sessions1: SessionIndex, sessions2: SessionIndex, fault1: Fault, fault2: Fault)
    ensures StripeWebhook(s1, Threw(message), sessions1, fault1).response
         == StripeWebhook(s2, Threw(message), sessions2, fault2).response
    ensures StripeWebhook(s1, Threw(message), sessions1, fault1).store == s1
  {
  }

  /** Delivering the same success event twice gives the store one delivery gives. */
  lemma {:induction false} PaymentSuccessIdempotent(s: Store, sessions: SessionIndex, intent: string)
    ensures var once := HandlePaymentSuccess(s, sessions, intent, NoFault);
            HandlePaymentSuccess(once, sessions, intent, NoFault) == once
  {
    var once := HandlePaymentSuccess(s, sessions, intent, NoFault);
    match Correlate(s, sessions, intent)
    case None =>
    case Some(pid) =>
      if Enrollable(s, pid) {
        assert Correlate(once, sessions, intent) == Some(pid);
        var p := s.purchases[pid];
        assert once.purchases[pid] == p.(status := Completed);
        assert once.courses[p.courseId].enrolledStudents == AddOnce(s.courses[p.courseId].enrolledStudents, p.userId);
      }
  }

  /**
   * A delivery that stopped part-way, followed by a complete redelivery of the
   * same event, ends in the store a single complete delivery produces: each
   * write checks before it appends.
   */
  lemma {:induction false} PaymentSuccessRetryConverges(s: Store, sessions: SessionIndex, intent: string, k: nat)
    ensures var partial := HandlePaymentSuccess(s, sessions, intent, FailsAfter(k));
            HandlePaymentSuccess(partial, sessions, intent, NoFault) == HandlePaymentSuccess(s, sessions, intent, NoFault)
  {
    var partial := HandlePaymentSuccess(s, sessions, intent, FailsAfter(k));
    match Correlate(s, sessions, intent)
    case None =>
    case Some(pid) =>
      if Enrollable(s, pid) {
        assert Correlate(partial, sessions, intent) == Some(pid);
        EnrolWritesResume(s, pid, k);
      }
  }

  /** Redoing all three writes after any prefix of them gives the result of doing them once. */
  lemma {:induction false} EnrolWritesResume(s: Store, pid: PurchaseId, k: nat)
    requires Enrollable(s, pid)
    ensures EnrolWrites(EnrolWrites(s, pid, k), pid, 3) == EnrolWrites(s, pid, 3)
  {
    var p := s.purchases[pid];
    var t := EnrolWrites(s, pid, k);
    assert t.purchases[pid].userId == p.userId && t.purchases[pid].courseId == p.courseId;
    var a := EnrolWrites(t, pid, 3);
    var b := EnrolWrites(s, pid, 3);
    assert a.courses == b.courses;
    assert a.users == b.users;
    assert a.purchases == b.purchases;
  }

  /** The success handler keeps the store invariant: it appends only what is absent. */
  lemma PaymentSuccessPreservesWf(s: Store, sessions: SessionIndex, intent: string, fault: Fault)
    requires Wf(s)
    ensures Wf(HandlePaymentSuccess(s, sessions, intent, fault))
  {
  }

  /**
   * There is no terminal-state guard: a failure event delivered after a
   * success event for the same payment intent turns the completed purchase
   * into a failed one, while the enrolments stay.
   */
  lemma FailureOverwritesCompleted(s: Store, sessions: SessionIndex, intent: string)
    requires Correlate(s, sessions, intent).Some? && Enrollable(s, Correlate(s, sessions, intent).value)
    ensures var pid := Correlate(s, sessions, intent).value;
            var p := s.purchases[pid];
            var done := HandlePaymentSuccess(s, sessions, intent, NoFault);
            var after := HandlePaymentFailed(done, sessions, intent, NoFault);
            && done.purchases[pid].status == Completed
            && after.purchases[pid].status == Failed
            && p.userId in after.courses[p.courseId].enrolledStudents
            && p.courseId in after.users[p.userId].enrolledCourses
  {
    var pid := Correlate(s, sessions, intent).value;
    var done := HandlePaymentSuccess(s, sessions, intent, NoFault);
    assert Correlate(done, sessions, intent) == Some(pid);
  }

  /** The failure handler keeps the store invariant and leaves every enrolment list alone. */
  lemma PaymentFailedPreservesWf(s: Store, sessions: SessionIndex, intent: string, fault: Fault)
    requires Wf(s)
    ensures Wf(HandlePaymentFailed(s, sessions, intent, fault))
  {
  }
}

=== FILE: wrappers.dfy ===
/** Option and the outcome of a call into code the model cannot see. */
module Wrappers {

  /** The conventional Some/None datatype, standing for a JavaScript value that may be null or undefined. */
  datatype Option<+T> = None | Some(value: T) {

    /** Returns the value held by Some, or the given default for None. */
    function GetOr(default: T): T {
      match this
      case Some(v) => v
      case None => default
    }
  }

  /** What an awaited call into an external service produced: a value, or an exception with its message. */
  datatype Oracle<+T> = Returned(value: T) | Threw(message: string)
}
